=== FILE: README.md ===
# Event inbox dashboard: a Dafny model

This project models the logic at the heart of a browser dashboard for a remote
event inbox. The dashboard lists inbox events page by page, filters them by
status, and acknowledges or deletes them one at a time or in bulk. It also
manages the API key used to call the service.

Every React handler in scope is a pure function over an immutable record of the
component's state. Things that happen outside the code are inputs:

- the outcome of each remote call (`Api.CallOutcome`, or a map from event
  identifier to success for a bulk action);
- the user's answer to the confirm prompt;
- the page of events last received from the server;
- the build-time environment;
- the browser storage slot holding the key.

Query caching is reduced to two result flags: "invalidated" and "refetched".

Modules, one per source file:

- `Wrappers`: `Option`.
- `JsText`: the JavaScript string behaviour the code relies on. This covers
  truthiness and `||` defaults, `String.prototype.trim`, and the decimal
  printing of an integer with its inverse for digit strings.
- `EventTypes`: event status, inbox item and inbox page records.
- `Config`: environment defaults, the polling flag, and `getApiEndpoint`.
- `Api`: error classification in the response interceptor, the `getInbox`
  parameters, the request paths, and the Authorization header rule.
- `EventList`: selection, pagination, filter and bulk-action handlers, plus the
  query key and the derived flags.
- `AcknowledgeButton`, `DeleteButton`: the per-event action state machines.
- `ApiKeyManager`, `ApiKeyInput`: the credential lifecycle and key masking.

The handlers as written behave as follows, and the model keeps that
behaviour even where a reader might expect otherwise:

- Changing the filter does not clear the selection.
- A failed bulk action keeps the whole selection, including identifiers whose
  call succeeded.
- A successful bulk action clears the entire selection. That includes boxes
  checked while its calls were in flight.
- "Previous" always returns to the first page.

Some consequences of the code, each proved as a lemma:

- The Authorization header is baked into the HTTP client when it is created.
  The request interceptor replaces it only when a key is stored. So after
  the health probe rejects a key, that key is removed from storage but is
  still sent (`ApiKeyManager.RejectedKeyStillSent`).
- The "Select All" checkbox compares sizes only. It can show as checked while
  none of the shown events is selected (`EventList.CheckedWithoutPageSelected`).
- `DeleteButton` is never rendered: the event card neither imports it nor
  passes `onDeleted`. So the list's `handleDeleted` callback cannot run. Both
  are still modelled as written.

## Model

| member | source | states |
|---|---|---|
| JsText.Trim | frontend/src/components/ApiKeyInput.tsx:23-27 | `trim` returns the slice of the input that has only whitespace around it and no whitespace at either end. The result is empty exactly when the input is all whitespace. |
| JsText.TrimIdempotent | frontend/src/components/ApiKeyInput.tsx:24-25 | Trimming a trimmed key changes nothing, so the stored key is already in trimmed form. |
| JsText.ParseShowNat | frontend/src/services/api.ts:81 | The decimal numeral printed for a status code reads back as that status code. |
| JsText.ShowNatInjective | frontend/src/services/api.ts:81 | Different status codes never print the same numeral. |
| EventTypes.StatusName | frontend/src/types/event.ts:6 | Every status has a non-empty wire name that parses back to that status. |
| EventTypes.IdSetSize | frontend/src/components/EventList.tsx:66 | The set of a page's event identifiers is never larger than the page. It is the same size exactly when no identifier repeats. |
| Config.Load | frontend/src/config/config.ts:13-38 | A set, non-empty variable wins; an unset or empty one falls back to the hard-coded URL, `''`, "5000" or "100". Polling is off exactly when the variable equals "false". |
| Config.UnsetEnvGivesDefaults | frontend/src/config/config.ts:13-38 | With nothing configured: the production URL, no key, polling every 5000 ms, pages of 100. |
| Config.LoadEnvFor | frontend/src/config/config.ts:13-38 | Every configuration with non-empty settings comes back unchanged from the environment that spells it out. |
| Config.StripTrailingSlash | frontend/src/config/config.ts:45 | Removes exactly one trailing `/` when present and leaves any other string unchanged. The length drops by at most one. |
| Config.StripUndoesAppend | frontend/src/config/config.ts:45 | Removing the slash undoes appending one, whatever the string ends with. |
| Config.StripRemovesOnlyOneSlash | frontend/src/config/config.ts:45 | "x//" becomes "x/", and stripping again changes it, so the normalisation is not idempotent. |
| Config.PollInterval | frontend/src/config/config.ts:26 | The interval has a value exactly when its text is a non-empty run of digits, and the numeral printed for n reads as n. |
| Config.PageSize | frontend/src/config/config.ts:32 | The page size has a value exactly when its text is a non-empty run of digits, and the numeral printed for n reads as n. |
| Config.GetApiEndpoint | frontend/src/config/config.ts:44-46 | An endpoint ending in `/` loses exactly that slash. Any other endpoint is used unchanged. |
| Api.Classify | frontend/src/services/api.ts:67-95 | The fixed 401/404/429 branches, the >= 500 branch, the other-status branch, the network branch and the fallback branch. Each is characterised both ways, so exactly one applies. |
| Api.ErrorMessage | frontend/src/services/api.ts:72-94 | Fixed messages for 401/404/429. "Server error: " plus the detail or "Internal server error" for 5xx. The detail or "Request failed with status N" otherwise. The network message when no response came back. Otherwise the error's message or the generic text. Never empty, for string details. |
| Api.MessageIdentifiesFailure | frontend/src/services/api.ts:72-94 | With no server detail and no low-level message, the message identifies its branch. A generic "Request failed" message carries the exact status code. |
| Api.Rejection | frontend/src/services/api.ts:67-95 | Every interceptor failure is rethrown as an Error carrying the classified, non-empty message. |
| Api.ErrorText | frontend/src/components/AcknowledgeButton.tsx:31 | A rejection that is an Error shows its own message. Any other thrown value shows the component's fallback text. |
| Api.InboxParams | frontend/src/services/api.ts:146-154 | `limit` always comes first. `cursor` is present exactly for a non-empty cursor. `status` is present exactly when a filter is given. No name repeats, and no other parameter is sent. |
| Api.InboxRequest | frontend/src/services/api.ts:156 | `getInbox` sends `GET /inbox` with the inbox parameters. The service reads back the limit, a non-empty cursor and the status. |
| Api.InboxParamsRoundTrip | frontend/src/services/api.ts:146-156 | The service reads back the limit, cursor and status that were asked for. An empty cursor is the one exception: it is dropped. |
| Api.AcknowledgeRequest | frontend/src/services/api.ts:165-168 | `POST /inbox/{id}/acknowledge`, from which the identifier reads back. |
| Api.DeleteRequest | frontend/src/services/api.ts:177-178 | `DELETE /inbox/{id}`, from which the identifier reads back. |
| Api.RequestsNameOneEvent | frontend/src/services/api.ts:165-178 | Different events never share an acknowledge or delete request. An acknowledge request is never a delete request. |
| Api.BearerHeader | frontend/src/services/api.ts:49-50 | A header exists exactly for a non-empty key. The key reads back after "Bearer ". |
| Api.StoredKey | frontend/src/services/api.ts:21-23 | A missing stored key reads as `''`. |
| Api.CreateClient | frontend/src/services/api.ts:28-42 | The client's base URL is `getApiEndpoint()`. Its built-in header is "Bearer " + the key stored at creation, present only for a non-empty key. |
| Api.RequestAuthorization | frontend/src/services/api.ts:45-55 | A request carries "Bearer " + the currently stored key when that key is non-empty. Otherwise it keeps the client's built-in header. |
| Api.FreshClientAuthorization | frontend/src/services/api.ts:21-55 | For a client created against the current storage, a request carries "Bearer " + key exactly when the stored key is non-empty. |
| Api.RemovedKeyStillSent | frontend/src/services/api.ts:39-54 | Removing the key without recreating the client leaves the old key in every request. |
| EventList.Init | frontend/src/components/EventList.tsx:15-19 | The list starts on the first page with the given filter, no selection, and no bulk action running. |
| EventList.PageEvents | frontend/src/components/EventList.tsx:146 | No events before a page arrives; afterwards, the page's events. |
| EventList.Key | frontend/src/components/EventList.tsx:29 | The query key lives in the "inbox" family and carries the selected filter, the cursor and the page size. |
| EventList.KeyRequest | frontend/src/components/EventList.tsx:30 | The query function for a key sends `GET /inbox`. The service reads back the key's limit, its non-empty cursor and its filter. |
| EventList.KeyIdentifiesPage | frontend/src/components/EventList.tsx:29-30 | Two states share a cache entry exactly when their filter and cursor agree. States sharing an entry send the same request. |
| EventList.Polling | frontend/src/components/EventList.tsx:31 | `refetchInterval` is `config.pollInterval` exactly when polling is enabled, and `false` otherwise. |
| EventList.HasNextPage | frontend/src/components/EventList.tsx:147 | "Next" is offered exactly when a page arrived with a next cursor that is neither null nor empty. |
| EventList.HasPreviousPage | frontend/src/components/EventList.tsx:148 | "Previous" is offered exactly when the cursor is not null. An empty cursor would count, although it is falsy. |
| EventList.SelectAllChecked | frontend/src/components/EventList.tsx:224 | The checkbox is never checked for an empty page. It is checked when the selection is exactly the page's identifiers and they are distinct. |
| EventList.SingleActionSucceeded | frontend/src/components/EventList.tsx:43-51 | After a single-event action succeeds, the list refetches and empties the whole selection. |
| EventList.Toggle | frontend/src/components/EventList.tsx:53-61 | Checking adds the identifier and unchecking removes it. No other identifier and no other field changes. |
| EventList.SelectAll | frontend/src/components/EventList.tsx:63-70 | Checking selects exactly the identifiers on the shown page. Unchecking empties the selection. |
| EventList.ClearSelection | frontend/src/components/EventList.tsx:203-209 | "Clear Selection" empties the selection and changes nothing else. While a bulk action runs the button is disabled and nothing changes. |
| EventList.SelectAllThenChecked | frontend/src/components/EventList.tsx:224 | After "Select All", the checkbox is checked exactly when the page is non-empty and its identifiers are distinct. |
| EventList.CheckedWithoutPageSelected | frontend/src/components/EventList.tsx:224 | The checkbox can be checked while no shown event is selected. |
| EventList.NextPage | frontend/src/components/EventList.tsx:116-120 | The cursor moves to the page's next cursor only when that cursor is present and non-empty. Otherwise nothing changes. |
| EventList.PreviousPage | frontend/src/components/EventList.tsx:122-126 | The cursor always goes back to the first page. |
| EventList.ChangeFilter | frontend/src/components/EventList.tsx:128-131 | 'all' removes the filter. The cursor resets to the first page. The selection is left untouched. |
| EventList.NextThenPrevious | frontend/src/components/EventList.tsx:116-126 | Following the next cursor gives key (filter, next, limit). "Previous" then gives (filter, none, limit), never an intermediate page. |
| EventList.OpRequests | frontend/src/components/EventList.tsx:101-103 | A bulk action sends one request for each selected identifier and nothing else. There are as many requests as identifiers. |
| EventList.OpRequestsSize | frontend/src/components/EventList.tsx:77-79 | Distinct identifiers give distinct requests, so the requests are as many as the selected identifiers. |
| EventList.BeginBulk | frontend/src/components/EventList.tsx:92-103 | Nothing starts while a bulk action runs, for an empty selection, or for a declined delete. Otherwise `bulkLoading` is set and exactly the selection's requests are sent. |
| EventList.AwaitAll | frontend/src/components/EventList.tsx:77-80 | Awaiting all the calls succeeds exactly when every one of them succeeded. |
| EventList.AwaitSelection | frontend/src/components/EventList.tsx:77-80 | Listing the selection in any order and awaiting every call succeeds exactly when every selected identifier's call succeeded. |
| EventList.SettleBulk | frontend/src/components/EventList.tsx:104-113 | On success the list invalidates, refetches and clears the selection. On failure it alerts and keeps the selection. `bulkLoading` ends false either way. |
| EventList.Bulk | frontend/src/components/EventList.tsx:72-114 | A press while a bulk action runs, an empty selection or a declined delete is a no-op. Otherwise exactly the selection's requests are sent, and the outcome is all or nothing. If every call succeeded, the list clears, invalidates and refetches without an alert. Otherwise it alerts, keeps the selection, and neither invalidates nor refetches. |
| EventList.PartialFailureKeepsSucceeded | frontend/src/components/EventList.tsx:100-113 | If any call fails, even identifiers whose call succeeded stay selected, and nothing is invalidated. |
| EventList.SelectionOutlivesFilterChange | frontend/src/components/EventList.tsx:128-131 | A bulk action right after a filter change still targets the identifiers selected under the old filter. |
| EventList.SelectionMadeDuringBulkIsDropped | frontend/src/components/EventList.tsx:104-106 | A box checked while a bulk action is in flight is cleared when that action succeeds. |
| EventList.StepKeepsReachable | frontend/src/components/EventList.tsx:53-131 | No handler ever sets the cursor to the empty string or leaves a bulk action running. |
| EventList.PreviousMatchesRequest | frontend/src/components/EventList.tsx:148 | Whenever the cursor is not the empty string, "Previous" is enabled exactly when the inbox request carries a cursor. |
| AcknowledgeButton.Click | frontend/src/components/AcknowledgeButton.tsx:20-24 | A click is a no-op when disabled, loading or acknowledged. Otherwise it clears the error, sets loading and sends the acknowledge request. |
| AcknowledgeButton.Settle | frontend/src/components/AcknowledgeButton.tsx:26-34 | Success acknowledges and runs the callback once. Failure records the error text and runs no callback. Loading ends false either way. |
| AcknowledgeButton.Acknowledge | frontend/src/components/AcknowledgeButton.tsx:20-35 | A click end to end: either nothing happens, or one request is sent and the outcome decides whether the event is acknowledged or shows an error. |
| AcknowledgeButton.ButtonDisabled | frontend/src/components/AcknowledgeButton.tsx:50 | A button disabled by its parent or by a pending call ignores every click. |
| AcknowledgeButton.DisabledFor | frontend/src/components/EventCard.tsx:68 | The card disables the button exactly for an event whose wire status is "acknowledged". Every click on such a button is ignored. |
| AcknowledgeButton.DisabledButtonIgnoresClicks | frontend/src/components/EventCard.tsx:65-69 | A button disabled by its parent or by a pending call starts no call. An enabled one starts a call unless the event is already acknowledged. With the card's `disabled` prop, an event the server reports as acknowledged never dispatches a request. |
| AcknowledgeButton.FailureShowsClassifiedMessage | frontend/src/components/AcknowledgeButton.tsx:30-31 | A failed acknowledge shows the HTTP client's classified message. |
| AcknowledgeButton.AcknowledgedIsTerminal | frontend/src/components/AcknowledgeButton.tsx:18-43 | No sequence of clicks and settles ever clears `acknowledged`. Once it is set, every click is ignored. |
| DeleteButton.OpenConfirm | frontend/src/components/DeleteButton.tsx:72-73 | Clicking the enabled delete button opens the dialog. While disabled, loading or already open, it does nothing. |
| DeleteButton.Cancel | frontend/src/components/DeleteButton.tsx:51-55 | Cancel closes the dialog and clears the error. It is a no-op while loading. |
| DeleteButton.Confirm | frontend/src/components/DeleteButton.tsx:20-24 | Confirming is a no-op when disabled or loading. Otherwise it clears the error, sets loading and sends the delete request. |
| DeleteButton.Settle | frontend/src/components/DeleteButton.tsx:26-34 | Success closes the dialog and runs `onDeleted` once. Failure records the error and keeps the dialog. Loading ends false either way. |
| DeleteButton.Delete | frontend/src/components/DeleteButton.tsx:20-35 | A confirmation end to end: either nothing happens, or one request is sent and the outcome decides what follows. |
| DeleteButton.LoadingNeverSticks | frontend/src/components/DeleteButton.tsx:20-35 | From a state that is not loading, no sequence of opens, cancels and confirmations leaves the button loading, because `finally` always clears it. |
| DeleteButton.FailedDeleteCanBeRetried | frontend/src/components/DeleteButton.tsx:26-34 | After a failed delete the dialog stays open with the error. Confirming again resends the request. |
| ApiKeyManager.Validate | frontend/src/components/ApiKeyManager.tsx:25-50 | An empty key only resets `isValid`. Otherwise the key is stored and the client rebuilt before the health probe, which carries that key. Success marks the key valid and notifies the parent. Failure records the error and removes the key. `isValidating` ends false. |
| ApiKeyManager.RejectedKeyStillSent | frontend/src/components/ApiKeyManager.tsx:36-46 | After the probe rejects a key, storage is empty but requests still carry "Bearer " + that key. |
| ApiKeyManager.Submit | frontend/src/components/ApiKeyManager.tsx:52-55 | Submitting validates the key in the field. An empty field touches nothing. Otherwise that key is stored first, and it stays stored and valid exactly when the probe succeeds. |
| ApiKeyManager.ChangeInput | frontend/src/components/ApiKeyManager.tsx:76-80 | Typing replaces the key and clears the error and the valid flag. |
| ApiKeyManager.Clear | frontend/src/components/ApiKeyManager.tsx:57-63 | Clear empties the key, resets `isValid` and the error, removes the stored key and rebuilds the client from the now empty storage. Requests then carry no key. |
| ApiKeyManager.StartingKey | frontend/src/components/ApiKeyManager.tsx:18 | The stored key wins when it is non-empty. Otherwise the configured key is used. |
| ApiKeyManager.Mount | frontend/src/components/ApiKeyManager.tsx:17-23 | A non-empty starting key is put in the field and validated. With no key anywhere, nothing happens. |
| ApiKeyManager.ConfiguredKeyAdoptedOnFirstLoad | frontend/src/components/ApiKeyManager.tsx:17-48 | When storage is empty and a configured key is accepted, it is stored, probed with its own header, and reported. |
| ApiKeyInput.GetKey | frontend/src/components/ApiKeyInput.tsx:2 | The abstract store yields its key, or `''` when empty. |
| ApiKeyInput.Mount | frontend/src/components/ApiKeyInput.tsx:13-21 | A stored, non-empty key is loaded and reported. Otherwise the editor opens. |
| ApiKeyInput.Save | frontend/src/components/ApiKeyInput.tsx:23-29 | Nothing happens unless the trimmed key is non-empty. Then the trimmed key is stored and reported, and the editor closes while the field keeps the untrimmed text. |
| ApiKeyInput.SaveStoresTrimmedKey | frontend/src/components/ApiKeyInput.tsx:23-40 | Save is refused exactly for all-whitespace keys. The stored key is trimmed, and the saved-key view shows afterwards. |
| ApiKeyInput.Clear | frontend/src/components/ApiKeyInput.tsx:31-36 | Clear empties store and field, opens the editor, reports `''`, and hides the saved-key view. |
| ApiKeyInput.Cancel | frontend/src/components/ApiKeyInput.tsx:100-103 | Cancel restores the stored key into the field and closes the editor. |
| ApiKeyInput.Mask | frontend/src/components/ApiKeyInput.tsx:38 | The mask is the first min(8, n) characters, then "...", then the last min(4, n). An empty key gives `''`. |
| ApiKeyInput.MaskRevealsShortKey | frontend/src/components/ApiKeyInput.tsx:38 | A key of at most 12 characters can be rebuilt from its mask and its length. |
| ApiKeyInput.MaskHidesMiddle | frontend/src/components/ApiKeyInput.tsx:38 | Longer keys with the same first 8 and last 4 characters have the same mask. |
| ApiKeyInput.ShowsSavedKey | frontend/src/components/ApiKeyInput.tsx:40 | The saved-key view shows when not editing and the field holds a truthy key. Its mask then always has something to show. |
| ApiKeyInput.ToggleShow | frontend/src/components/ApiKeyInput.tsx:54 | Show/Hide flips only the visibility flag. |
| ApiKeyInput.StartEditing | frontend/src/components/ApiKeyInput.tsx:60 | Change opens the editor on the current key and hides the saved-key view. |
| ApiKeyInput.Edit | frontend/src/components/ApiKeyInput.tsx:86 | Typing replaces the field's text. |

## Left out

- Query caching, request coalescing, stale-while-revalidate, polling timers and retries belong to the query library, which is not part of this model. Invalidation and refetch appear only as result flags.
- The axios transport is out: timeouts, URL joining and logging. Only the interceptor's classification and the header rule are modelled.
- Concurrency of the per-identifier calls is out. A bulk action sees one outcome per identifier, and `AwaitSelection` combines them over any listing of the selection. `Promise.all` rejects at the first failure, so the handler's `finally` clears `bulkActionLoading` while other calls may still be in flight. That re-enables the bulk buttons early, and the model does not represent that window. Which failure's message reaches the alert is not modelled; the alert itself is a flag.
- The `confirm` prompt is an input. The `alert` is an output flag.
- JSX rendering, CSS, date formatting, payload pretty-printing and the status colour table are out. So are the loading and error views of the list and its "Page 1 / 2+" label.
- Routing and visibility in the app shell, the loading spinner, and the environment type declarations are out.
- `Config.PollInterval`: `parseInt` is modelled only on strings of decimal digits. Leading signs, partial parses such as "5s" (5 in the source) and NaN have no value here.
- `Config.PageSize`: the same digit-only reading of `parseInt`.
- `isDevelopment` / `isProduction` only read build flags and are out.
- `ingestEvent` and the health response body are out. The event-ingestion endpoint is a testing aid, not part of the dashboard's flow.
- Event payload numbers are integers; JSON floating point is out.
- `Api.ErrorMessage`: a response `detail` that is not a string is modelled as absent. The source puts any truthy detail into the message as text. A truthy empty array would give the empty message, so "never empty" holds only for string details.
- `Api.Rejection`: its non-empty message rests on the same string-only reading of `detail`.
- `ApiKeyInput.Mask`: strings are sequences of Unicode code points, while `substring` and `length` count UTF-16 code units. For keys outside the Basic Multilingual Plane the mask differs, and a cut through a surrogate pair is not modelled. API keys are ASCII in practice.
- `JsText.Trim`: the same code-point reading applies. Lone surrogates cannot occur in the model's strings.
- `EventList.Bulk`: the outcome map must cover every selected identifier. The client's 30-second timeout guarantees this: every call settles, and a timed-out request rejects through the network-error branch.
- `EventList.Polling`: only the value handed to the query library is modelled. How the library uses it is out: an interval of 0 means no polling there, and polling pauses in a background tab by default. Its `requires` asks for a digit-only interval text when polling is on, so an interval such as "5s", which `parseInt` reads as 5, is outside the model.
- The `getApiKey` / `setApiKey` / `clearApiKey` functions that the compact key input imports are not exported by the configuration module. They are modelled as an abstract storage slot.

=== FILE: acknowledge_button.dfy ===
/** The per-event "Acknowledge" button: a guarded state machine whose
    `acknowledged` flag, once set, is never cleared. */
module AcknowledgeButton {
  import opened Wrappers
  import opened EventTypes
  import Api

  const FallbackError: string := "Failed to acknowledge event"

  datatype AckState = AckState(isLoading: bool, error: Option<string>, acknowledged: bool)

  const Initial: AckState := AckState(false, None, false)

  /** The event card disables the button for events the server already
      reports as acknowledged. */
  predicate DisabledFor(item: EventInboxItem)
    ensures DisabledFor(item) <==> StatusName(item.status) == "acknowledged"
    ensures DisabledFor(item) ==> forall s: AckState :: Click(s, item.eventId, DisabledFor(item)).Ignored?
  {
    item.status == Acknowledged
  }

  /** The rendered button is disabled while disabled by its parent or loading. */
  predicate ButtonDisabled(s: AckState, disabled: bool)
    ensures ButtonDisabled(s, disabled) ==> forall eventId :: Click(s, eventId, disabled).Ignored?
  {
    disabled || s.isLoading
  }

  /** The first half of `handleAcknowledge`, up to the `await`. */
  datatype Start = Ignored | Dispatched(state: AckState, request: Api.Request)

  /** A click does nothing while disabled, loading or already acknowledged;
      otherwise it clears the previous error, sets loading and sends the
      acknowledge request for this event. */
  function Click(s: AckState, eventId: string, disabled: bool): (c: Start)
    ensures c.Ignored? <==> disabled || s.isLoading || s.acknowledged
    ensures c.Dispatched? ==>
      && c.state == AckState(true, None, false)
      && c.request == Api.AcknowledgeRequest(eventId)
  {
    if disabled || s.isLoading || s.acknowledged then Ignored
    else Dispatched(s.(isLoading := true, error := None), Api.AcknowledgeRequest(eventId))
  }

  /** The state after the call settled and how often `onAcknowledged` ran. */
  datatype Settled = Settled(state: AckState, callbacks: nat)

  /** After the `await`: success marks the event acknowledged and runs the
      callback once; failure records the error text and runs nothing;
      loading is cleared either way. */
  function Settle(s: AckState, outcome: Api.CallOutcome): (r: Settled)
    ensures !r.state.isLoading
    ensures outcome.Resolved? ==> r.state.acknowledged && r.state.error == s.error && r.callbacks == 1
    ensures outcome.Rejected? ==>
      && r.state.acknowledged == s.acknowledged
      && r.state.error == Some(Api.ErrorText(outcome.reason, FallbackError))
      && r.callbacks == 0
  {
    match outcome
    case Resolved => Settled(s.(acknowledged := true, isLoading := false), 1)
    case Rejected(reason) =>
      Settled(s.(error := Some(Api.ErrorText(reason, FallbackError)), isLoading := false), 0)
  }

  /** A whole click: the requests it sent and how often the callback ran. */
  datatype Attempt = Attempt(state: AckState, requests: seq<Api.Request>, callbacks: nat)

  function Acknowledge(s: AckState, eventId: string, disabled: bool, outcome: Api.CallOutcome): (a: Attempt)
    ensures disabled || s.isLoading || s.acknowledged ==> a == Attempt(s, [], 0)
    ensures !(disabled || s.isLoading || s.acknowledged) ==>
      && a.requests == [Api.AcknowledgeRequest(eventId)]
      && !a.state.isLoading
      && (outcome.Resolved? ==> a.state.acknowledged && a.state.error.None? && a.callbacks == 1)
      && (outcome.Rejected? ==>
            && !a.state.acknowledged && a.callbacks == 0
            && a.state.error == Some(Api.ErrorText(outcome.reason, FallbackError)))
  {
    match Click(s, eventId, disabled)
    case Ignored => Attempt(s, [], 0)
    case Dispatched(mid, request) =>
      var r := Settle(mid, outcome);
      Attempt(r.state, [request], r.callbacks)
  }

  /** The button's disabled attribute and the handler's own guard agree: a
      disabled button cannot start a call, an enabled one for an event not
      yet acknowledged always does, and the card disables it for events the
      server already reports as acknowledged. */
  lemma DisabledButtonIgnoresClicks(s: AckState, item: EventInboxItem, disabled: bool)
    ensures ButtonDisabled(s, disabled) ==> Click(s, item.eventId, disabled).Ignored?
    ensures !ButtonDisabled(s, disabled) && !s.acknowledged ==> Click(s, item.eventId, disabled).Dispatched?
    ensures Click(s, item.eventId, DisabledFor(item)).Dispatched? ==> item.status != Acknowledged
  {
  }

  /** A failure coming from the HTTP client shows the classified message. */
  lemma FailureShowsClassifiedMessage(s: AckState, eventId: string, f: Api.HttpFailure)
    requires !s.isLoading && !s.acknowledged
    ensures Acknowledge(s, eventId, false, Api.Rejected(Api.Rejection(f))).state.error
         == Some(Api.ErrorMessage(f))
  {
  }

  /** What can happen to the button: a click (with the parent's `disabled`
      and the outcome of the call it would send) or a bare settle. */
  datatype Event = Clicked(disabled: bool, outcome: Api.CallOutcome) | CallSettled(outcome: Api.CallOutcome)

  function Apply(s: AckState, eventId: string, e: Event): AckState {
    match e
    case Clicked(disabled, outcome) => Acknowledge(s, eventId, disabled, outcome).state
    case CallSettled(outcome) => Settle(s, outcome).state
  }

  function Run(s: AckState, eventId: string, events: seq<Event>): AckState
    decreases |events|
  {
    if events == [] then s else Run(Apply(s, eventId, events[0]), eventId, events[1..])
  }

  /** `acknowledged` is monotone: no sequence of events clears it, and once
      it is set every further click is ignored. */
  lemma {:induction false} AcknowledgedIsTerminal(s: AckState, eventId: string, events: seq<Event>)
    requires s.acknowledged
    ensures Run(s, eventId, events).acknowledged
    ensures forall d, o :: Acknowledge(s, eventId, d, o) == Attempt(s, [], 0)
    decreases |events|
  {
    if events != [] {
      AcknowledgedIsTerminal(Apply(s, eventId, events[0]), eventId, events[1..]);
    }
  }
}

=== FILE: api.dfy ===
/** The HTTP client of the dashboard: how a failed call is turned into an
    error message, how the inbox query parameters and the Authorization
    header are built, and which path each call targets. The transport
    itself (axios, timeouts, logging) is not modelled. */
module Api {
  import opened Wrappers
  import opened JsText
  import opened EventTypes
  import Config

  // ---------------------------------------------------------------------------
  // Response-error classification

  /** A response with an error status; `detail` is the `detail` field of the
      JSON body, None when it is missing or not a string. */
  datatype ErrorResponse = ErrorResponse(status: nat, detail: Option<string>)

  /** A failed call as the response interceptor sees it: the response if one
      arrived, whether a request was sent at all, and the low-level message. */
  datatype HttpFailure = HttpFailure(
    response: Option<ErrorResponse>,
    requestMade: bool,
    message: Option<string>)

  datatype ErrorKind =
    | Unauthorized | NotFound | RateLimited | ServerError | RequestFailed
    | NetworkError | Unexpected

  const UnauthorizedMessage: string := "Unauthorized: Invalid or missing API key"
  const NotFoundMessage: string := "Not found: The requested resource was not found"
  const RateLimitMessage: string := "Rate limit exceeded: Please try again later"
  const ServerErrorPrefix: string := "Server error: "
  const InternalServerErrorDetail: string := "Internal server error"
  const StatusFailurePrefix: string := "Request failed with status "
  const NetworkErrorMessage: string := "Network error: Unable to connect to the API"
  const UnexpectedErrorMessage: string := "An unexpected error occurred"

  /** Which branch of the interceptor handles a failure. The three fixed
      statuses are tested before the 5xx range, and a failure without a
      response is a network error only if a request was actually sent. */
  function Classify(f: HttpFailure): (k: ErrorKind)
    ensures k == Unauthorized <==> f.response.Some? && f.response.value.status == 401
    ensures k == NotFound <==> f.response.Some? && f.response.value.status == 404
    ensures k == RateLimited <==> f.response.Some? && f.response.value.status == 429
    ensures k == ServerError <==> f.response.Some? && f.response.value.status >= 500
    ensures k == RequestFailed <==>
      && f.response.Some?
      && f.response.value.status !in {401, 404, 429}
      && f.response.value.status < 500
    ensures k == NetworkError <==> f.response.None? && f.requestMade
    ensures k == Unexpected <==> f.response.None? && !f.requestMade
  {
    match f.response
    case Some(resp) =>
      if resp.status == 401 then Unauthorized
      else if resp.status == 404 then NotFound
      else if resp.status == 429 then RateLimited
      else if resp.status >= 500 then ServerError
      else RequestFailed
    case None =>
      if f.requestMade then NetworkError else Unexpected
  }

  /** The message of the Error the interceptor throws. It is never empty. */
  function ErrorMessage(f: HttpFailure): (m: string)
    ensures Classify(f) == Unauthorized ==> m == UnauthorizedMessage
    ensures Classify(f) == NotFound ==> m == NotFoundMessage
    ensures Classify(f) == RateLimited ==> m == RateLimitMessage
    ensures Classify(f) == ServerError ==>
      m == ServerErrorPrefix + OrElse(f.response.value.detail, InternalServerErrorDetail)
    ensures Classify(f) == RequestFailed && Truthy(f.response.value.detail) ==>
      m == f.response.value.detail.value
    ensures Classify(f) == RequestFailed && !Truthy(f.response.value.detail) ==>
      m == StatusFailurePrefix + ShowNat(f.response.value.status)
    ensures Classify(f) == NetworkError ==> m == NetworkErrorMessage
    ensures Classify(f) == Unexpected ==> m == OrElse(f.message, UnexpectedErrorMessage)
    ensures m != ""
  {
    match Classify(f)
    case Unauthorized => UnauthorizedMessage
    case NotFound => NotFoundMessage
    case RateLimited => RateLimitMessage
    case ServerError => ServerErrorPrefix + OrElse(f.response.value.detail, InternalServerErrorDetail)
    case RequestFailed =>
      OrElse(f.response.value.detail, StatusFailurePrefix + ShowNat(f.response.value.status))
    case NetworkError => NetworkErrorMessage
    case Unexpected => OrElse(f.message, UnexpectedErrorMessage)
  }

  /** Reads a message back into the branch that produced it, assuming no
      server-supplied detail and no low-level message took part. */
  function KindOfMessage(m: string): ErrorKind {
    if m == UnauthorizedMessage then Unauthorized
    else if m == NotFoundMessage then NotFound
    else if m == RateLimitMessage then RateLimited
    else if StartsWith(m, ServerErrorPrefix) then ServerError
    else if StartsWith(m, StatusFailurePrefix) then RequestFailed
    else if m == NetworkErrorMessage then NetworkError
    else Unexpected
  }

  /** The status code named by a "Request failed with status N" message. */
  function StatusOfMessage(m: string): Option<nat> {
    if StartsWith(m, StatusFailurePrefix) then ParseNat(m[|StatusFailurePrefix|..]) else None
  }

  /** When neither the server's detail nor a low-level message is involved,
      the message alone tells which branch was taken, and a generic
      "Request failed" message still carries the exact status code. */
  lemma MessageIdentifiesFailure(f: HttpFailure)
    requires f.response.Some? ==> !Truthy(f.response.value.detail)
    requires f.response.None? ==> !Truthy(f.message)
    ensures KindOfMessage(ErrorMessage(f)) == Classify(f)
    ensures Classify(f) == RequestFailed ==> StatusOfMessage(ErrorMessage(f)) == Some(f.response.value.status)
  {
    var m := ErrorMessage(f);
    if Classify(f) == RequestFailed {
      var digits := ShowNat(f.response.value.status);
      assert m[..|StatusFailurePrefix|] == StatusFailurePrefix;
      assert m[|StatusFailurePrefix|..] == digits;
      ParseShowNat(f.response.value.status);
      assert m[0] == 'R';
      assert !StartsWith(m, ServerErrorPrefix) by {
        assert m[..|ServerErrorPrefix|][0] == 'R';
      }
    } else if Classify(f) == ServerError {
      assert m[..|ServerErrorPrefix|] == ServerErrorPrefix;
    } else if Classify(f) == NetworkError {
      assert !StartsWith(m, ServerErrorPrefix) by {
        assert m[..|ServerErrorPrefix|][0] == 'N';
      }
      assert !StartsWith(m, StatusFailurePrefix) by {
        assert m[..|StatusFailurePrefix|][0] == 'N';
      }
    } else if Classify(f) == Unexpected {
      assert m == UnexpectedErrorMessage;
      assert !StartsWith(m, ServerErrorPrefix) by {
        assert m[..|ServerErrorPrefix|][0] == 'A';
      }
      assert !StartsWith(m, StatusFailurePrefix) by {
        assert m[..|StatusFailurePrefix|][0] == 'A';
      }
    }
  }

  // ---------------------------------------------------------------------------
  // Call outcomes as the components see them

  /** The reason of a rejected promise: an Error object with its message,
      or a value that is not an Error. */
  datatype Thrown = ErrorObject(message: string) | OtherValue

  /** How one remote call settled. */
  datatype CallOutcome = Resolved | Rejected(reason: Thrown)

  /** Every failure that reaches the interceptor is rethrown as an Error
      carrying the classified message. */
  function Rejection(f: HttpFailure): (t: Thrown)
    ensures t.ErrorObject? && t.message != ""
    ensures t.message == ErrorMessage(f)
  {
    ErrorObject(ErrorMessage(f))
  }

  /** `err instanceof Error ? err.message : fallback`. */
  function ErrorText(t: Thrown, fallback: string): (text: string)
    ensures t.ErrorObject? ==> text == t.message
    ensures t.OtherValue? ==> text == fallback
  {
    match t
    case ErrorObject(msg) => msg
    case OtherValue => fallback
  }

  // ---------------------------------------------------------------------------
  // Requests

  datatype ParamValue = NumberParam(n: int) | TextParam(text: string)

  /** Query parameters in insertion order. */
  type Params = seq<(string, ParamValue)>

  /** The value of the first parameter named `key`. */
  function Lookup(ps: Params, key: string): (v: Option<ParamValue>)
    ensures v.Some? <==> exists i :: 0 <= i < |ps| && ps[i].0 == key
  {
    if ps == [] then None
    else if ps[0].0 == key then Some(ps[0].1)
    else Lookup(ps[1..], key)
  }

  /** The parameters of `getInbox`: `limit` always comes first; `cursor` is
      added only for a present, non-empty cursor; `status` only when a status
      filter is given. No name occurs twice. */
  function InboxParams(limit: int, cursor: Option<string>, status: Option<EventStatus>): (ps: Params)
    ensures |ps| >= 1 && ps[0] == ("limit", NumberParam(limit))
    ensures Lookup(ps, "cursor") == (if Truthy(cursor) then Some(TextParam(cursor.value)) else None)
    ensures Lookup(ps, "status") == (if status.Some? then Some(TextParam(StatusName(status.value))) else None)
    ensures forall i, j :: 0 <= i < j < |ps| ==> ps[i].0 != ps[j].0
    ensures forall i :: 0 <= i < |ps| ==> ps[i].0 in {"limit", "cursor", "status"}
  {
    var head: Params := [("limit", NumberParam(limit))];
    var cursorPart: Params := if Truthy(cursor) then [("cursor", TextParam(cursor.value))] else [];
    var withCursor := head + cursorPart;
    var tail: Params := if status.Some? then [("status", TextParam(StatusName(status.value)))] else [];
    LookupSkips(withCursor, tail, "status");
    assert withCursor + tail == head + (cursorPart + tail);
    LookupSkips(head, cursorPart + tail, "cursor");
    assert tail + [] == tail;
    LookupSkips(tail, [], "cursor");
    withCursor + tail
  }

  /** Looking up a name the front part does not use reads the back part. */
  lemma LookupSkips(front: Params, back: Params, key: string)
    requires forall i :: 0 <= i < |front| ==> front[i].0 != key
    ensures Lookup(front + back, key) == Lookup(back, key)
  {
    if front != [] {
      assert (front + back)[0] == front[0];
      assert (front + back)[1..] == front[1..] + back;
      LookupSkips(front[1..], back, key);
      assert Lookup(front + back, key) == Lookup(front[1..] + back, key);
    } else {
      assert front + back == back;
    }
  }

  /** What the service reads out of the parameters of an inbox request. */
  datatype InboxQuery = InboxQuery(limit: Option<int>, cursor: Option<string>, status: Option<EventStatus>)

  function ReadInboxQuery(ps: Params): InboxQuery {
    InboxQuery(
      match Lookup(ps, "limit") case Some(NumberParam(n)) => Some(n) case _ => None,
      match Lookup(ps, "cursor") case Some(TextParam(c)) => Some(c) case _ => None,
      match Lookup(ps, "status") case Some(TextParam(s)) => ParseStatus(s) case _ => None)
  }

  /** The service reads back exactly what `getInbox` was asked for, except
      that an empty cursor is dropped on the way (it is falsy). */
  lemma InboxParamsRoundTrip(limit: int, cursor: Option<string>, status: Option<EventStatus>)
    ensures ReadInboxQuery(InboxParams(limit, cursor, status))
         == InboxQuery(Some(limit), if Truthy(cursor) then cursor else None, status)
  {
  }

  datatype HttpMethod = Get | Post | Delete

  datatype Request = Request(verb: HttpMethod, path: string, params: Params)

  const InboxPath: string := "/inbox"
  const EventPathPrefix: string := "/inbox/"
  const AcknowledgeSuffix: string := "/acknowledge"

  /** `GET /inbox` with the `getInbox` parameters; the service reads back the
      limit, a non-empty cursor and the status. */
  function InboxRequest(limit: int, cursor: Option<string>, status: Option<EventStatus>): (r: Request)
    ensures r.verb == Get && r.path == InboxPath && r.params == InboxParams(limit, cursor, status)
    ensures ReadInboxQuery(r.params) == InboxQuery(Some(limit), if Truthy(cursor) then cursor else None, status)
  {
    InboxParamsRoundTrip(limit, cursor, status);
    Request(Get, InboxPath, InboxParams(limit, cursor, status))
  }

  /** The event identifier inside an acknowledge path. */
  function AcknowledgedEventOf(path: string): Option<string> {
    if |path| >= |EventPathPrefix| + |AcknowledgeSuffix|
       && StartsWith(path, EventPathPrefix) && EndsWith(path, AcknowledgeSuffix)
    then Some(path[|EventPathPrefix|..|path| - |AcknowledgeSuffix|])
    else None
  }

  /** The event identifier inside a single-event path. */
  function EventOf(path: string): Option<string> {
    if StartsWith(path, EventPathPrefix) then Some(path[|EventPathPrefix|..]) else None
  }

  /** `POST /inbox/{id}/acknowledge`: the identifier is inserted verbatim and
      can be read back from the path. */
  function AcknowledgeRequest(eventId: string): (r: Request)
    ensures r.verb == Post && r.params == []
    ensures StartsWith(r.path, EventPathPrefix) && EndsWith(r.path, AcknowledgeSuffix)
    ensures AcknowledgedEventOf(r.path) == Some(eventId)
  {
    var path := EventPathPrefix + eventId + AcknowledgeSuffix;
    assert path[..|EventPathPrefix|] == EventPathPrefix;
    assert path[|path| - |AcknowledgeSuffix|..] == AcknowledgeSuffix;
    assert path[|EventPathPrefix|..|path| - |AcknowledgeSuffix|] == eventId;
    Request(Post, path, [])
  }

  /** `DELETE /inbox/{id}`: the identifier is inserted verbatim and can be
      read back from the path. */
  function DeleteRequest(eventId: string): (r: Request)
    ensures r.verb == Delete && r.params == []
    ensures StartsWith(r.path, EventPathPrefix)
    ensures EventOf(r.path) == Some(eventId)
  {
    var path := EventPathPrefix + eventId;
    assert path[..|EventPathPrefix|] == EventPathPrefix;
    assert path[|EventPathPrefix|..] == eventId;
    Request(Delete, path, [])
  }

  /** Distinct events never share an acknowledge or a delete request. */
  lemma RequestsNameOneEvent(a: string, b: string)
    ensures AcknowledgeRequest(a) == AcknowledgeRequest(b) ==> a == b
    ensures DeleteRequest(a) == DeleteRequest(b) ==> a == b
    ensures AcknowledgeRequest(a) != DeleteRequest(b)
  {
  }

  // ---------------------------------------------------------------------------
  // Authorization header

  const BearerPrefix: string := "Bearer "

  /** `localStorage.getItem('zapier_api_key') || ''` for the key's storage slot. */
  function StoredKey(storage: Option<string>): (key: string)
    ensures storage.None? ==> key == ""
    ensures storage.Some? ==> key == storage.value
  {
    storage.GetOr("")
  }

  /** The Authorization header for a key: present exactly for a non-empty
      key, and the key can be read back after the "Bearer " prefix. */
  function BearerHeader(key: string): (h: Option<string>)
    ensures h.Some? <==> key != ""
    ensures h.Some? ==> StartsWith(h.value, BearerPrefix) && h.value[|BearerPrefix|..] == key
  {
    if key != "" then
      var v := BearerPrefix + key;
      assert v[..|BearerPrefix|] == BearerPrefix;
      assert v[|BearerPrefix|..] == key;
      Some(v)
    else None
  }

  /** An HTTP client: its base URL and the Authorization header fixed when it
      was created. */
  datatype Client = Client(baseUrl: string, defaultAuthorization: Option<string>)

  /** `createApiClient`: the header is taken from the key stored at creation time. */
  function CreateClient(storage: Option<string>, cfg: Config.Config): (c: Client)
    ensures c.baseUrl == Config.GetApiEndpoint(cfg)
    ensures c.defaultAuthorization.Some? <==> StoredKey(storage) != ""
    ensures c.defaultAuthorization.Some? ==> c.defaultAuthorization.value == BearerPrefix + StoredKey(storage)
  {
    Client(Config.GetApiEndpoint(cfg), BearerHeader(StoredKey(storage)))
  }

  /** The Authorization header a request goes out with: the request
      interceptor writes the currently stored key when there is one, and
      otherwise leaves the client's creation-time header in place. */
  function RequestAuthorization(client: Client, storage: Option<string>): (h: Option<string>)
    ensures StoredKey(storage) != "" ==> h == Some(BearerPrefix + StoredKey(storage))
    ensures StoredKey(storage) == "" ==> h == client.defaultAuthorization
  {
    if StoredKey(storage) != "" then BearerHeader(StoredKey(storage)) else client.defaultAuthorization
  }

  /** For a client created against the current storage, a request carries
      "Bearer " + key exactly when the stored key is non-empty. */
  lemma FreshClientAuthorization(storage: Option<string>, cfg: Config.Config)
    ensures var h := RequestAuthorization(CreateClient(storage, cfg), storage);
      && (h.Some? <==> StoredKey(storage) != "")
      && (h.Some? ==> h.value == BearerPrefix + StoredKey(storage))
  {
  }

  /** Removing the key from storage without recreating the client does not
      remove the header: the creation-time key keeps being sent. */
  lemma RemovedKeyStillSent(key: string, cfg: Config.Config)
    requires key != ""
    ensures RequestAuthorization(CreateClient(Some(key), cfg), None) == Some(BearerPrefix + key)
  {
  }
}

=== FILE: api_key_input.dfy ===
/** The compact API key input: save (trimmed), clear, cancel, and the masked
    display of a saved key. The key store behind `getApiKey`, `setApiKey`
    and `clearApiKey` is an abstract slot: the configuration module does not
    provide those three functions, so their storage is modelled, not their code. */
module ApiKeyInput {
  import opened Wrappers
  import opened JsText
  import Api

  datatype InputState = InputState(apiKey: string, isEditing: bool, showKey: bool)

  const Initial: InputState := InputState("", false, false)

  /** `getApiKey()`: the stored key, or the empty string, read the same way
      as the HTTP client reads its storage slot. */
  function GetKey(store: Option<string>): (key: string)
    ensures store.Some? ==> key == store.value
    ensures store.None? ==> key == ""
  {
    Api.StoredKey(store)
  }

  /** The state and store after a handler, and the value passed to
      `onApiKeySet` if it was called. */
  datatype Outcome = Outcome(state: InputState, store: Option<string>, reported: Option<string>)

  /** On mount a non-empty stored key is loaded and reported; otherwise the
      editor opens. */
  function Mount(s: InputState, store: Option<string>): (o: Outcome)
    ensures o.store == store
    ensures GetKey(store) != "" ==> o.state == s.(apiKey := GetKey(store)) && o.reported == Some(GetKey(store))
    ensures GetKey(store) == "" ==> o.state == s.(isEditing := true) && o.reported.None?
  {
    var stored := GetKey(store);
    if stored != "" then Outcome(s.(apiKey := stored), store, Some(stored))
    else Outcome(s.(isEditing := true), store, None)
  }

  /** `handleSave`: nothing happens unless the trimmed key is non-empty; then
      the trimmed key is stored and reported and the editor closes. The
      field itself keeps the untrimmed text. */
  function Save(s: InputState, store: Option<string>): (o: Outcome)
    ensures Trim(s.apiKey) == "" ==> o == Outcome(s, store, None)
    ensures Trim(s.apiKey) != "" ==>
      && o.store == Some(Trim(s.apiKey))
      && o.reported == Some(Trim(s.apiKey))
      && o.state == s.(isEditing := false)
  {
    var key := Trim(s.apiKey);
    if key != "" then Outcome(s.(isEditing := false), Some(key), Some(key))
    else Outcome(s, store, None)
  }

  /** Save is refused exactly for keys made only of whitespace; what it stores
      has no surrounding whitespace, and after it the saved-key view shows. */
  lemma SaveStoresTrimmedKey(s: InputState, store: Option<string>)
    ensures Save(s, store).reported.None? <==> forall i :: 0 <= i < |s.apiKey| ==> IsWhitespace(s.apiKey[i])
    ensures Save(s, store).reported.Some? ==>
      && Trim(Save(s, store).store.value) == Save(s, store).store.value
      && ShowsSavedKey(Save(s, store).state)
  {
    TrimIdempotent(s.apiKey);
  }

  /** `handleClear`: empties store and field, opens the editor and reports ''. */
  function Clear(s: InputState, store: Option<string>): (o: Outcome)
    ensures o.store.None? && o.state.apiKey == "" && o.state.isEditing && o.state.showKey == s.showKey
    ensures o.reported == Some("")
    ensures !ShowsSavedKey(o.state)
  {
    Outcome(s.(apiKey := "", isEditing := true), None, Some(""))
  }

  /** The editor's Cancel button: the field goes back to the stored key. */
  function Cancel(s: InputState, store: Option<string>): (t: InputState)
    ensures t.apiKey == GetKey(store) && !t.isEditing && t.showKey == s.showKey
  {
    s.(apiKey := GetKey(store), isEditing := false)
  }

  function Min(a: int, b: int): int { if a < b then a else b }

  /** `maskedKey`: the first eight characters, "...", and the last four, with
      JavaScript's clamping of `substring` for short keys; '' for no key. */
  function Mask(key: string): (m: string)
    ensures key == "" ==> m == ""
    ensures key != "" ==>
      var head := Min(8, |key|);
      var tail := Min(4, |key|);
      && |m| == head + 3 + tail
      && m[..head] == key[..head]
      && m[head..head + 3] == "..."
      && m[head + 3..] == key[|key| - tail..]
  {
    if key == "" then ""
    else
      var tailStart := if |key| - 4 < 0 then 0 else |key| - 4;
      key[..Min(8, |key|)] + "..." + key[tailStart..]
  }

  /** A key of at most twelve characters is fully visible in its mask: given
      its length, the mask gives it back. */
  lemma MaskRevealsShortKey(key: string)
    requires 0 < |key| <= 12
    ensures var m := Mask(key);
      var head := Min(8, |key|);
      key == m[..head] + m[|m| - (|key| - head)..]
  {
    var m := Mask(key);
    var head := Min(8, |key|);
    var tail := Min(4, |key|);
    assert m[|m| - (|key| - head)..] == key[head..] by {
      assert m[head + 3..] == key[|key| - tail..];
      assert m[|m| - (|key| - head)..] == m[head + 3..][tail - (|key| - head)..];
      assert key[|key| - tail..][tail - (|key| - head)..] == key[head..];
    }
    assert key == key[..head] + key[head..];
  }

  /** For longer keys the mask hides the middle: keys that agree on their
      first eight and last four characters have the same mask. */
  lemma MaskHidesMiddle(a: string, b: string)
    requires |a| > 12 && |b| == |a|
    requires a[..8] == b[..8] && a[|a| - 4..] == b[|b| - 4..]
    ensures Mask(a) == Mask(b)
  {
  }

  /** The saved-key view (with Show / Change / Clear) is shown exactly when
      not editing and the field holds a key; otherwise the editor is. */
  predicate ShowsSavedKey(s: InputState)
    ensures ShowsSavedKey(s) <==> !s.isEditing && Truthy(Some(s.apiKey))
    ensures ShowsSavedKey(s) ==> Mask(s.apiKey) != ""
  {
    !s.isEditing && s.apiKey != ""
  }

  /** The view's Show/Hide button. */
  function ToggleShow(s: InputState): (t: InputState)
    ensures t.showKey != s.showKey && t.apiKey == s.apiKey && t.isEditing == s.isEditing
  {
    s.(showKey := !s.showKey)
  }

  /** The view's Change button opens the editor on the current key. */
  function StartEditing(s: InputState): (t: InputState)
    ensures t.isEditing && t.apiKey == s.apiKey && t.showKey == s.showKey && !ShowsSavedKey(t)
  {
    s.(isEditing := true)
  }

  /** Typing in the editor. */
  function Edit(s: InputState, text: string): (t: InputState)
    ensures t.apiKey == text && t.isEditing == s.isEditing && t.showKey == s.showKey
  {
    s.(apiKey := text)
  }
}

=== FILE: api_key_manager.dfy ===
/** The API key form: validating a key against the health endpoint, clearing
    it, and loading the stored key on mount. The storage slot and the HTTP
    client are explicit state; the health call's outcome is an input. */
module ApiKeyManager {
  import opened Wrappers
  import opened JsText
  import Api
  import Config

  const FallbackError: string := "Invalid API key"

  datatype ManagerState = ManagerState(apiKey: string, isValidating: bool, error: Option<string>, isValid: bool)

  const Initial: ManagerState := ManagerState("", false, None, false)

  /** The browser-side state the form touches: the storage slot for the key
      and the shared HTTP client. */
  datatype World = World(storage: Option<string>, client: Api.Client)

  /** The side effects of a handler, in the order they happen. */
  datatype Effect =
    | StoreKey(key: string)
    | RemoveKey
    | RebuildClient
    | HealthCheck(authorization: Option<string>)
    | NotifyKeySet

  datatype Outcome = Outcome(state: ManagerState, world: World, effects: seq<Effect>)

  /** `validateApiKey`. An empty key only resets `isValid`. Otherwise the key
      is stored and the client rebuilt before the health probe, which goes
      out with that key; success marks the key valid and notifies the
      parent, failure records the error and removes the key from storage. */
  function Validate(s: ManagerState, w: World, cfg: Config.Config, key: string, health: Api.CallOutcome): (o: Outcome)
    ensures o.state.apiKey == s.apiKey
    ensures key == "" ==> o == Outcome(s.(isValid := false), w, [])
    ensures key != "" ==>
      && |o.effects| >= 3
      && o.effects[..3] == [StoreKey(key), RebuildClient, HealthCheck(Some(Api.BearerPrefix + key))]
      && o.world.client == Api.CreateClient(Some(key), cfg)
      && !o.state.isValidating
    ensures key != "" && health.Resolved? ==>
      && o.state.isValid && o.state.error.None?
      && o.world.storage == Some(key)
      && o.effects[3..] == [NotifyKeySet]
    ensures key != "" && health.Rejected? ==>
      && !o.state.isValid
      && o.state.error == Some(Api.ErrorText(health.reason, FallbackError))
      && o.world.storage.None?
      && o.effects[3..] == [RemoveKey]
  {
    if key == "" then Outcome(s.(isValid := false), w, [])
    else
      var storage := Some(key);
      var client := Api.CreateClient(storage, cfg);
      var probe := [StoreKey(key), RebuildClient, HealthCheck(Api.RequestAuthorization(client, storage))];
      match health
      case Resolved =>
        Outcome(s.(isValidating := false, error := None, isValid := true),
                World(storage, client), probe + [NotifyKeySet])
      case Rejected(reason) =>
        Outcome(s.(isValidating := false, error := Some(Api.ErrorText(reason, FallbackError)), isValid := false),
                World(None, client), probe + [RemoveKey])
  }

  /** A key the health probe rejected is removed from storage, but the client
      built for the probe is kept, so later requests still send it. */
  lemma RejectedKeyStillSent(s: ManagerState, w: World, cfg: Config.Config, key: string, reason: Api.Thrown)
    requires key != ""
    ensures var o := Validate(s, w, cfg, key, Api.Rejected(reason));
      && o.world.storage.None?
      && Api.RequestAuthorization(o.world.client, o.world.storage) == Some(Api.BearerPrefix + key)
  {
    Api.RemovedKeyStillSent(key, cfg);
  }

  /** The submit handler validates whatever is in the field: an empty field
      touches nothing, otherwise the field's key is the one stored and probed,
      and storage afterwards holds it exactly when the probe succeeded. */
  function Submit(s: ManagerState, w: World, cfg: Config.Config, health: Api.CallOutcome): (o: Outcome)
    ensures s.apiKey == "" ==> o.world == w && o.effects == [] && !o.state.isValid
    ensures s.apiKey != "" ==>
      && |o.effects| >= 3 && o.effects[0] == StoreKey(s.apiKey)
      && (o.world.storage == Some(s.apiKey) <==> health.Resolved?)
      && (o.state.isValid <==> health.Resolved?)
  {
    Validate(s, w, cfg, s.apiKey, health)
  }

  /** Typing in the field replaces the key and forgets any verdict on the old one. */
  function ChangeInput(s: ManagerState, text: string): (t: ManagerState)
    ensures t.apiKey == text && t.error.None? && !t.isValid && t.isValidating == s.isValidating
  {
    s.(apiKey := text, error := None, isValid := false)
  }

  /** `handleClear`: empties the field and the verdict, removes the stored key
      and rebuilds the client, after which requests carry no key. */
  function Clear(s: ManagerState, w: World, cfg: Config.Config): (o: Outcome)
    ensures o.state.apiKey == "" && !o.state.isValid && o.state.error.None?
    ensures o.state.isValidating == s.isValidating
    ensures o.world.storage.None?
    ensures o.world.client == Api.CreateClient(None, cfg)
    ensures Api.RequestAuthorization(o.world.client, o.world.storage).None?
    ensures o.effects == [RemoveKey, RebuildClient]
  {
    Outcome(s.(apiKey := "", isValid := false, error := None),
            World(None, Api.CreateClient(None, cfg)), [RemoveKey, RebuildClient])
  }

  /** The key the form starts from: the stored key if there is a non-empty
      one, otherwise the configured key. */
  function StartingKey(w: World, cfg: Config.Config): (key: string)
    ensures Api.StoredKey(w.storage) != "" ==> key == Api.StoredKey(w.storage)
    ensures Api.StoredKey(w.storage) == "" ==> key == cfg.apiKey
  {
    OrElse(Some(Api.StoredKey(w.storage)), cfg.apiKey)
  }

  /** On mount a non-empty starting key is put in the field and validated;
      with no key anywhere nothing happens. */
  function Mount(s: ManagerState, w: World, cfg: Config.Config, health: Api.CallOutcome): (o: Outcome)
    ensures StartingKey(w, cfg) == "" ==> o == Outcome(s, w, [])
    ensures StartingKey(w, cfg) != "" ==>
      && o.state.apiKey == StartingKey(w, cfg)
      && |o.effects| >= 3 && o.effects[0] == StoreKey(StartingKey(w, cfg))
      && (health.Resolved? ==> o.state.isValid && o.world.storage == Some(StartingKey(w, cfg)))
      && (health.Rejected? ==> !o.state.isValid && o.world.storage.None?)
  {
    var key := StartingKey(w, cfg);
    if key == "" then Outcome(s, w, [])
    else Validate(s.(apiKey := key), w, cfg, key, health)
  }

  /** A configured key is validated on first load, and once accepted it is
      what storage holds from then on. */
  lemma ConfiguredKeyAdoptedOnFirstLoad(cfg: Config.Config, client: Api.Client)
    requires cfg.apiKey != ""
    ensures var o := Mount(Initial, World(None, client), cfg, Api.Resolved);
      && o.world.storage == Some(cfg.apiKey)
      && o.effects == [StoreKey(cfg.apiKey), RebuildClient, HealthCheck(Some(Api.BearerPrefix + cfg.apiKey)), NotifyKeySet]
  {
  }
}

=== FILE: config.dfy ===
/** Application configuration: every setting comes from a build-time
    environment variable, falling back to a hard-coded default when the
    variable is unset or empty, plus the trailing-slash normalisation of the
    API endpoint. */
module Config {
  import opened Wrappers
  import opened JsText

  const DefaultApiEndpoint: string := "https://k6peopo7ve.execute-api.us-east-1.amazonaws.com/prod"
  const DefaultPollInterval: string := "5000"
  const DefaultPageSize: string := "100"

  /** The build-time environment; None is a variable that is not set. */
  datatype Env = Env(
    apiEndpoint: Option<string>,
    apiKey: Option<string>,
    pollInterval: Option<string>,
    defaultPageSize: Option<string>,
    enablePolling: Option<string>)

  /** The loaded configuration. The two numeric settings are kept as the
      text handed to `parseInt`; PollInterval and PageSize read them. */
  datatype Config = Config(
    apiEndpoint: string,
    apiKey: string,
    pollIntervalText: string,
    defaultPageSizeText: string,
    enablePolling: bool)

  /** Builds the configuration from the environment: a set, non-empty
      variable wins, anything else falls back to the default; polling is on
      unless the variable is exactly "false". */
  function Load(env: Env): (c: Config)
    ensures Truthy(env.apiEndpoint) ==> c.apiEndpoint == env.apiEndpoint.value
    ensures !Truthy(env.apiEndpoint) ==> c.apiEndpoint == DefaultApiEndpoint
    ensures Truthy(env.apiKey) ==> c.apiKey == env.apiKey.value
    ensures !Truthy(env.apiKey) ==> c.apiKey == ""
    ensures Truthy(env.pollInterval) ==> c.pollIntervalText == env.pollInterval.value
    ensures !Truthy(env.pollInterval) ==> c.pollIntervalText == DefaultPollInterval
    ensures Truthy(env.defaultPageSize) ==> c.defaultPageSizeText == env.defaultPageSize.value
    ensures !Truthy(env.defaultPageSize) ==> c.defaultPageSizeText == DefaultPageSize
    ensures !c.enablePolling <==> env.enablePolling == Some("false")
    ensures c.apiEndpoint != "" && c.pollIntervalText != "" && c.defaultPageSizeText != ""
  {
    Config(
      OrElse(env.apiEndpoint, DefaultApiEndpoint),
      OrElse(env.apiKey, ""),
      OrElse(env.pollInterval, DefaultPollInterval),
      OrElse(env.defaultPageSize, DefaultPageSize),
      env.enablePolling != Some("false"))
  }

  /** `config.pollInterval` for values that are plain decimal numerals: a
      number is read back from the numeral that prints it, and any text that
      is not a non-empty run of digits has no value in the model. */
  function PollInterval(c: Config): (ms: Option<nat>)
    ensures ms.Some? <==> c.pollIntervalText != "" && AllDigits(c.pollIntervalText)
    ensures forall n: nat :: ShowNat(n) == c.pollIntervalText ==> ms == Some(n)
  {
    forall n: nat | ShowNat(n) == c.pollIntervalText ensures ParseNat(c.pollIntervalText) == Some(n) {
      ParseShowNat(n);
    }
    ParseNat(c.pollIntervalText)
  }

  /** `config.defaultPageSize`, read the same way as PollInterval. */
  function PageSize(c: Config): (size: Option<nat>)
    ensures size.Some? <==> c.defaultPageSizeText != "" && AllDigits(c.defaultPageSizeText)
    ensures forall n: nat :: ShowNat(n) == c.defaultPageSizeText ==> size == Some(n)
  {
    forall n: nat | ShowNat(n) == c.defaultPageSizeText ensures ParseNat(c.defaultPageSizeText) == Some(n) {
      ParseShowNat(n);
    }
    ParseNat(c.defaultPageSizeText)
  }

  /** An environment in which every variable is unset or empty. */
  predicate Unset(env: Env) {
    && !Truthy(env.apiEndpoint) && !Truthy(env.apiKey) && !Truthy(env.pollInterval)
    && !Truthy(env.defaultPageSize) && env.enablePolling != Some("false")
  }

  /** With nothing configured the dashboard talks to the production endpoint
      without a key, polls every 5000 ms and asks for pages of 100. */
  lemma UnsetEnvGivesDefaults(env: Env)
    requires Unset(env)
    ensures Load(env).apiEndpoint == DefaultApiEndpoint
    ensures Load(env).apiKey == ""
    ensures PollInterval(Load(env)) == Some(5000)
    ensures PageSize(Load(env)) == Some(100)
    ensures Load(env).enablePolling
  {
    assert ShowNat(5000) == DefaultPollInterval;
    ParseShowNat(5000);
    assert ShowNat(100) == DefaultPageSize;
    ParseShowNat(100);
  }

  /** An environment that spells out every setting of `c` explicitly. */
  function EnvFor(c: Config): Env {
    Env(Some(c.apiEndpoint), Some(c.apiKey), Some(c.pollIntervalText),
        Some(c.defaultPageSizeText), Some(if c.enablePolling then "true" else "false"))
  }

  /** Every configuration with non-empty settings is reachable: loading the
      environment that spells it out gives it back. An empty key is the one
      setting that may also come from an unset variable. */
  lemma LoadEnvFor(c: Config)
    requires c.apiEndpoint != "" && c.pollIntervalText != "" && c.defaultPageSizeText != ""
    ensures Load(EnvFor(c)) == c
  {
  }

  // ---------------------------------------------------------------------------
  // getApiEndpoint

  /** `s.replace(/\/$/, '')`: removes one `/` at the very end, if there is one. */
  function StripTrailingSlash(s: string): (r: string)
    ensures EndsWith(s, "/") ==> r + "/" == s
    ensures !EndsWith(s, "/") ==> r == s
    ensures |r| == |s| || |r| == |s| - 1
  {
    if |s| > 0 && s[|s| - 1] == '/' then s[..|s| - 1] else s
  }

  /** The API base URL used by the HTTP client. */
  function GetApiEndpoint(c: Config): (url: string)
    ensures EndsWith(c.apiEndpoint, "/") ==> url + "/" == c.apiEndpoint
    ensures !EndsWith(c.apiEndpoint, "/") ==> url == c.apiEndpoint
  {
    StripTrailingSlash(c.apiEndpoint)
  }

  /** Stripping undoes appending one slash, whatever the string already ends with. */
  lemma StripUndoesAppend(r: string)
    ensures StripTrailingSlash(r + "/") == r
  {
    assert (r + "/")[..|r|] == r;
  }

  /** Only one slash goes: "x//" becomes "x/", and stripping again changes it,
      so the normalisation is not idempotent. */
  lemma StripRemovesOnlyOneSlash()
    ensures StripTrailingSlash("x//") == "x/"
    ensures StripTrailingSlash(StripTrailingSlash("x//")) == "x"
  {
    StripUndoesAppend("x/");
    StripUndoesAppend("x");
  }
}

=== FILE: delete_button.dfy ===
/** The per-event "Delete" button with its confirmation dialog. The event card
    does not render it, so in the running dashboard none of these
    transitions is reachable; the component is modelled on its own. */
module DeleteButton {
  import opened Wrappers
  import Api

  const FallbackError: string := "Failed to delete event"

  datatype DeleteState = DeleteState(isLoading: bool, error: Option<string>, showConfirm: bool)

  const Initial: DeleteState := DeleteState(false, None, false)

  /** The plain delete button is shown only while the dialog is closed, and
      is disabled while disabled by its parent or loading; clicking it
      opens the dialog. */
  function OpenConfirm(s: DeleteState, disabled: bool): (t: DeleteState)
    ensures s.showConfirm || disabled || s.isLoading ==> t == s
    ensures !(s.showConfirm || disabled || s.isLoading) ==> t.showConfirm && t.isLoading == s.isLoading && t.error == s.error
  {
    if s.showConfirm || disabled || s.isLoading then s else s.(showConfirm := true)
  }

  /** The dialog's Cancel button (disabled while loading) closes the dialog
      and clears the error. */
  function Cancel(s: DeleteState): (t: DeleteState)
    ensures s.isLoading ==> t == s
    ensures !s.isLoading ==> !t.showConfirm && t.error.None? && !t.isLoading
  {
    if s.isLoading then s else s.(showConfirm := false, error := None)
  }

  /** The first half of `handleDelete`, up to the `await`. */
  datatype Start = Ignored | Dispatched(state: DeleteState, request: Api.Request)

  /** Confirming does nothing while disabled or loading; otherwise it clears
      the error, sets loading and sends the delete request. */
  function Confirm(s: DeleteState, eventId: string, disabled: bool): (c: Start)
    ensures c.Ignored? <==> disabled || s.isLoading
    ensures c.Dispatched? ==>
      && c.state == DeleteState(true, None, s.showConfirm)
      && c.request == Api.DeleteRequest(eventId)
  {
    if disabled || s.isLoading then Ignored
    else Dispatched(s.(isLoading := true, error := None), Api.DeleteRequest(eventId))
  }

  /** The state after the call settled and how often `onDeleted` ran. */
  datatype Settled = Settled(state: DeleteState, callbacks: nat)

  /** Success closes the dialog and runs the callback once; failure records
      the error and leaves the dialog as it was; loading is cleared either way. */
  function Settle(s: DeleteState, outcome: Api.CallOutcome): (r: Settled)
    ensures !r.state.isLoading
    ensures outcome.Resolved? ==> !r.state.showConfirm && r.state.error == s.error && r.callbacks == 1
    ensures outcome.Rejected? ==>
      && r.state.showConfirm == s.showConfirm
      && r.state.error == Some(Api.ErrorText(outcome.reason, FallbackError))
      && r.callbacks == 0
  {
    match outcome
    case Resolved => Settled(s.(showConfirm := false, isLoading := false), 1)
    case Rejected(reason) =>
      Settled(s.(error := Some(Api.ErrorText(reason, FallbackError)), isLoading := false), 0)
  }

  datatype Attempt = Attempt(state: DeleteState, requests: seq<Api.Request>, callbacks: nat)

  /** A whole confirmation click. */
  function Delete(s: DeleteState, eventId: string, disabled: bool, outcome: Api.CallOutcome): (a: Attempt)
    ensures disabled || s.isLoading ==> a == Attempt(s, [], 0)
    ensures !(disabled || s.isLoading) ==>
      && a.requests == [Api.DeleteRequest(eventId)]
      && !a.state.isLoading
      && (outcome.Resolved? ==> !a.state.showConfirm && a.state.error.None? && a.callbacks == 1)
      && (outcome.Rejected? ==>
            && a.state.showConfirm == s.showConfirm && a.callbacks == 0
            && a.state.error == Some(Api.ErrorText(outcome.reason, FallbackError)))
  {
    match Confirm(s, eventId, disabled)
    case Ignored => Attempt(s, [], 0)
    case Dispatched(mid, request) =>
      var r := Settle(mid, outcome);
      Attempt(r.state, [request], r.callbacks)
  }

  /** What the user can do with the button: open the dialog, cancel it, or
      confirm (with the parent's `disabled` and the outcome of the call). */
  datatype Event = Opened(disabled: bool) | Cancelled | Confirmed(disabled: bool, outcome: Api.CallOutcome)

  function Apply(s: DeleteState, eventId: string, e: Event): DeleteState {
    match e
    case Opened(disabled) => OpenConfirm(s, disabled)
    case Cancelled => Cancel(s)
    case Confirmed(disabled, outcome) => Delete(s, eventId, disabled, outcome).state
  }

  function Run(s: DeleteState, eventId: string, events: seq<Event>): DeleteState
    decreases |events|
  {
    if events == [] then s else Run(Apply(s, eventId, events[0]), eventId, events[1..])
  }

  /** The `finally` block always clears loading: from a settled state, no
      sequence of opens, cancels and confirmations leaves the button loading,
      so it never stays disabled by a call of its own. */
  lemma {:induction false} LoadingNeverSticks(s: DeleteState, eventId: string, events: seq<Event>)
    requires !s.isLoading
    ensures !Run(s, eventId, events).isLoading
    decreases |events|
  {
    if events != [] {
      LoadingNeverSticks(Apply(s, eventId, events[0]), eventId, events[1..]);
    }
  }

  /** Open, confirm and fail: the dialog stays open showing the error, and
      a second confirmation sends the request again. */
  lemma FailedDeleteCanBeRetried(eventId: string, reason: Api.Thrown, outcome: Api.CallOutcome)
    ensures var failed := Delete(OpenConfirm(Initial, false), eventId, false, Api.Rejected(reason));
      && failed.state.showConfirm
      && failed.state.error == Some(Api.ErrorText(reason, FallbackError))
      && Delete(failed.state, eventId, false, outcome).requests == [Api.DeleteRequest(eventId)]
  {
  }
}

=== FILE: event_list.dfy ===
/** The inbox list view: its filter, its pagination cursor, the multi-select
    selection and the bulk acknowledge / delete actions. Each handler is a
    pure transition of the view state; the last page received from the
    server, the user's answer to the confirm prompt and the outcome of every
    remote call are inputs. Query caching is reduced to two flags saying
    whether the inbox was invalidated and whether a refetch was requested. */
module EventList {
  import opened Wrappers
  import opened JsText
  import opened EventTypes
  import Api
  import Config

  /** The value of the status dropdown. */
  datatype FilterChoice = AllStatuses | OnlyStatus(status: EventStatus)

  /** The state of the list: status filter, cursor (None is the first page),
      selected event identifiers, and whether a bulk action is running. */
  datatype ViewState = ViewState(
    filter: Option<EventStatus>,
    cursor: Option<string>,
    selection: set<string>,
    bulkLoading: bool)

  /** The state when the list is first shown with an optional status filter. */
  function Init(statusFilter: Option<EventStatus>): (s: ViewState)
    ensures s.filter == statusFilter && s.cursor.None? && s.selection == {} && !s.bulkLoading
  {
    ViewState(statusFilter, None, {}, false)
  }

  /** `data?.events || []`: the events of the last page, none before any page arrived. */
  function PageEvents(data: Option<InboxResponse>): (events: seq<EventInboxItem>)
    ensures data.None? ==> events == []
    ensures data.Some? ==> events == data.value.events
  {
    match data
    case Some(page) => page.events
    case None => []
  }

  // ---------------------------------------------------------------------------
  // Query key, request and derived flags

  /** The cache key of the inbox query. */
  datatype QueryKey = QueryKey(domain: string, filter: Option<EventStatus>, cursor: Option<string>, limit: int)

  function Key(s: ViewState, limit: int): (k: QueryKey)
    ensures k.domain == "inbox" && k.limit == limit
    ensures k.filter == s.filter && k.cursor == s.cursor
  {
    QueryKey("inbox", s.filter, s.cursor, limit)
  }

  /** The request the query function sends for a key. */
  function KeyRequest(k: QueryKey): (r: Api.Request)
    ensures r.verb == Api.Get && r.path == Api.InboxPath
    ensures Api.ReadInboxQuery(r.params)
         == Api.InboxQuery(Some(k.limit), if Truthy(k.cursor) then k.cursor else None, k.filter)
  {
    Api.InboxRequest(k.limit, k.cursor, k.filter)
  }

  /** Two states share a cache entry exactly when they agree on filter and
      cursor, and states that share a cache entry send the same request. */
  lemma KeyIdentifiesPage(s: ViewState, t: ViewState, limit: int)
    ensures Key(s, limit) == Key(t, limit) <==> s.filter == t.filter && s.cursor == t.cursor
    ensures Key(s, limit) == Key(t, limit) ==> KeyRequest(Key(s, limit)) == KeyRequest(Key(t, limit))
  {
  }

  /** `refetchInterval`: the poll interval when polling is enabled, otherwise off. */
  datatype RefetchInterval = Every(ms: nat) | Never

  function Polling(cfg: Config.Config): (r: RefetchInterval)
    requires cfg.enablePolling ==> Config.PollInterval(cfg).Some?
    ensures r.Every? <==> cfg.enablePolling
    ensures r.Every? ==> Config.PollInterval(cfg) == Some(r.ms)
  {
    if cfg.enablePolling then Every(Config.PollInterval(cfg).value) else Never
  }

  /** `!!data?.next_cursor`: a page exists and its next cursor is neither
      null nor the empty string. */
  predicate HasNextPage(data: Option<InboxResponse>)
    ensures HasNextPage(data) <==>
      data.Some? && data.value.nextCursor.Some? && data.value.nextCursor.value != ""
  {
    data.Some? && Truthy(data.value.nextCursor)
  }

  /** `cursor !== null`: a strict comparison, so an empty cursor would count
      as a page after the first, unlike the truthiness tests elsewhere. */
  predicate HasPreviousPage(s: ViewState)
    ensures !HasPreviousPage(s) <==> s.cursor.None?
    ensures s.cursor == Some("") ==> HasPreviousPage(s) && !Truthy(s.cursor)
  {
    s.cursor.Some?
  }

  /** The "Select All" checkbox: some events are shown and the selection has
      as many members as the page has events. Selecting exactly the page's
      identifiers checks it when they are distinct. */
  predicate SelectAllChecked(data: Option<InboxResponse>, s: ViewState)
    ensures SelectAllChecked(data, s) ==> PageEvents(data) != []
    ensures s.selection == IdSet(PageEvents(data)) && PageEvents(data) != [] && DistinctIds(PageEvents(data))
      ==> SelectAllChecked(data, s)
  {
    IdSetSize(PageEvents(data));
    |PageEvents(data)| > 0 && |s.selection| == |PageEvents(data)|
  }

  // ---------------------------------------------------------------------------
  // Selection handlers

  /** Checking an event's box adds its identifier, unchecking removes it;
      no other identifier and no other field changes. */
  function Toggle(s: ViewState, eventId: string, checked: bool): (t: ViewState)
    ensures t.filter == s.filter && t.cursor == s.cursor && t.bulkLoading == s.bulkLoading
    ensures eventId in t.selection <==> checked
    ensures forall id :: id != eventId ==> (id in t.selection <==> id in s.selection)
  {
    s.(selection := if checked then s.selection + {eventId} else s.selection - {eventId})
  }

  /** Checking "Select All" selects exactly the identifiers of the shown
      page; unchecking it empties the selection. */
  function SelectAll(s: ViewState, data: Option<InboxResponse>, checked: bool): (t: ViewState)
    ensures t.filter == s.filter && t.cursor == s.cursor && t.bulkLoading == s.bulkLoading
    ensures checked ==> forall id :: id in t.selection <==>
      exists i :: 0 <= i < |PageEvents(data)| && PageEvents(data)[i].eventId == id
    ensures !checked ==> t.selection == {}
  {
    s.(selection := if checked then IdSet(PageEvents(data)) else {})
  }

  /** The "Clear Selection" button, which is disabled while a bulk action runs. */
  function ClearSelection(s: ViewState): (t: ViewState)
    ensures s.bulkLoading ==> t == s
    ensures !s.bulkLoading ==> t.selection == {}
    ensures t.filter == s.filter && t.cursor == s.cursor && t.bulkLoading == s.bulkLoading
  {
    if s.bulkLoading then s else s.(selection := {})
  }

  /** After "Select All", the checkbox reads as checked exactly when the page
      is non-empty and no identifier occurs on it twice. */
  lemma SelectAllThenChecked(s: ViewState, data: Option<InboxResponse>)
    ensures SelectAllChecked(data, SelectAll(s, data, true))
        <==> |PageEvents(data)| > 0 && DistinctIds(PageEvents(data))
  {
    IdSetSize(PageEvents(data));
  }

  /** The checkbox compares sizes only: it can read as checked while the
      selection holds none of the shown events. */
  lemma CheckedWithoutPageSelected()
    ensures var item := EventInboxItem("a", "order.created", "shop", map[], "2024-01-01T00:00:00Z", Pending);
      var data := Some(InboxResponse([item], None, 1));
      var s := ViewState(None, None, {"z"}, false);
      SelectAllChecked(data, s) && "a" !in s.selection
  {
  }

  // ---------------------------------------------------------------------------
  // Pagination and filter handlers

  /** "Next" moves to the page's next cursor when it is present and
      non-empty, and otherwise does nothing. */
  function NextPage(s: ViewState, data: Option<InboxResponse>): (t: ViewState)
    ensures HasNextPage(data) ==> t.cursor == data.value.nextCursor && t.cursor.value != ""
    ensures !HasNextPage(data) ==> t == s
    ensures t.filter == s.filter && t.selection == s.selection && t.bulkLoading == s.bulkLoading
  {
    if HasNextPage(data) then s.(cursor := data.value.nextCursor) else s
  }

  /** "Previous" always goes back to the first page; no cursor history is kept. */
  function PreviousPage(s: ViewState): (t: ViewState)
    ensures t.cursor.None? && !HasPreviousPage(t)
    ensures t.filter == s.filter && t.selection == s.selection && t.bulkLoading == s.bulkLoading
  {
    s.(cursor := None)
  }

  /** Choosing a filter: 'all' removes the filter, the cursor returns to the
      first page, and the selection is left exactly as it was. */
  function ChangeFilter(s: ViewState, choice: FilterChoice): (t: ViewState)
    ensures choice.AllStatuses? ==> t.filter.None?
    ensures choice.OnlyStatus? ==> t.filter == Some(choice.status)
    ensures t.cursor.None?
    ensures t.selection == s.selection && t.bulkLoading == s.bulkLoading
  {
    s.(filter := if choice.AllStatuses? then None else Some(choice.status), cursor := None)
  }

  /** Following a page's next cursor and then pressing "Previous" lands on
      the first page with the same filter, never on an intermediate page. */
  lemma NextThenPrevious(s: ViewState, data: Option<InboxResponse>, limit: int)
    requires HasNextPage(data)
    ensures Key(NextPage(s, data), limit) == QueryKey("inbox", s.filter, data.value.nextCursor, limit)
    ensures Key(PreviousPage(NextPage(s, data)), limit) == QueryKey("inbox", s.filter, None, limit)
  {
  }

  // ---------------------------------------------------------------------------
  // Single-event action callback

  /** The list after a handler ran: whether the inbox cache was invalidated
      and whether the query was asked to refetch. */
  datatype Refresh = Refresh(state: ViewState, invalidated: bool, refetched: bool)

  /** `handleAcknowledged` (and the identical `handleDeleted`): refetch and
      drop the whole selection, whichever event the action was for. */
  function SingleActionSucceeded(s: ViewState): (r: Refresh)
    ensures r.state.selection == {} && r.refetched && !r.invalidated
    ensures r.state.filter == s.filter && r.state.cursor == s.cursor && r.state.bulkLoading == s.bulkLoading
  {
    Refresh(s.(selection := {}), false, true)
  }

  // ---------------------------------------------------------------------------
  // Bulk actions

  datatype BulkOp = BulkAcknowledge | BulkDelete

  /** The request sent for one selected event. */
  function OpRequest(op: BulkOp, eventId: string): Api.Request {
    match op
    case BulkAcknowledge => Api.AcknowledgeRequest(eventId)
    case BulkDelete => Api.DeleteRequest(eventId)
  }

  /** Different events never share a request. */
  lemma OpRequestInjective(op: BulkOp, a: string, b: string)
    ensures OpRequest(op, a) == OpRequest(op, b) ==> a == b
  {
    Api.RequestsNameOneEvent(a, b);
  }

  /** The requests a bulk action over `ids` dispatches: one per identifier,
      and nothing else. */
  function OpRequests(op: BulkOp, ids: set<string>): (rs: set<Api.Request>)
    ensures forall id :: id in ids <==> OpRequest(op, id) in rs
    ensures forall r :: r in rs ==> exists id :: id in ids && r == OpRequest(op, id)
    ensures |rs| == |ids|
  {
    var rs := set id | id in ids :: OpRequest(op, id);
    assert forall id :: OpRequest(op, id) in rs ==> id in ids by {
      forall id | OpRequest(op, id) in rs
        ensures id in ids
      {
        var j :| j in ids && OpRequest(op, j) == OpRequest(op, id);
        OpRequestInjective(op, j, id);
      }
    }
    OpRequestsSize(op, ids);
    rs
  }

  /** One request per identifier: the set of requests is as large as the selection. */
  lemma {:induction false} OpRequestsSize(op: BulkOp, ids: set<string>)
    ensures |set id | id in ids :: OpRequest(op, id)| == |ids|
    decreases |ids|
  {
    if ids != {} {
      var x :| x in ids;
      var rest := ids - {x};
      OpRequestsSize(op, rest);
      var all := set id | id in ids :: OpRequest(op, id);
      var others := set id | id in rest :: OpRequest(op, id);
      assert all == others + {OpRequest(op, x)};
      assert OpRequest(op, x) !in others;
    }
  }

  /** The first half of a bulk handler. */
  datatype BulkStart = NotStarted | Started(state: ViewState, requests: set<Api.Request>)

  /** Whether a bulk button press gets past its guards: the buttons are
      disabled while a bulk action runs, the handler returns early for an
      empty selection, and a delete needs the user's confirmation. */
  predicate BulkProceeds(s: ViewState, op: BulkOp, confirmed: bool) {
    !s.bulkLoading && s.selection != {} && (op == BulkAcknowledge || confirmed)
  }

  /** Up to the first `await`: nothing happens while a bulk action runs, for
      an empty selection or for a delete the user declined at the prompt;
      otherwise `bulkLoading` is set and exactly one request per selected
      identifier is dispatched. */
  function BeginBulk(s: ViewState, op: BulkOp, confirmed: bool): (b: BulkStart)
    ensures b.Started? <==> BulkProceeds(s, op, confirmed)
    ensures b.Started? ==> b.state == s.(bulkLoading := true)
    ensures b.Started? ==> b.requests == OpRequests(op, s.selection) && |b.requests| == |s.selection|
    ensures b.Started? ==> forall id :: id in s.selection <==> OpRequest(op, id) in b.requests
  {
    if s.bulkLoading || s.selection == {} then NotStarted
    else if op == BulkDelete && !confirmed then NotStarted
    else Started(s.(bulkLoading := true), OpRequests(op, s.selection))
  }

  /** `Promise.all` over the selected identifiers resolves exactly when every
      call resolved. */
  predicate AllSucceeded(ids: set<string>, outcomes: map<string, bool>)
    requires ids <= outcomes.Keys
  {
    forall id :: id in ids ==> outcomes[id]
  }

  /** Reports whether every listed call succeeded, which is when
      `Promise.all` resolves. */
  method AwaitAll(ids: seq<string>, outcomes: map<string, bool>) returns (allOk: bool)
    requires forall i :: 0 <= i < |ids| ==> ids[i] in outcomes
    ensures allOk <==> forall i :: 0 <= i < |ids| ==> outcomes[ids[i]]
  {
    allOk := true;
    var i := 0;
    while i < |ids|
      invariant 0 <= i <= |ids|
      invariant allOk <==> forall j :: 0 <= j < i ==> outcomes[ids[j]]
    {
      if !outcomes[ids[i]] {
        allOk := false;
      }
      i := i + 1;
    }
  }

  /** `Array.from(selectedEvents)` followed by `Promise.all`: whatever order
      the identifiers are listed in, the calls all succeed exactly when
      AllSucceeded holds for the selection. */
  method AwaitSelection(selection: set<string>, outcomes: map<string, bool>) returns (allOk: bool)
    requires selection <= outcomes.Keys
    ensures allOk == AllSucceeded(selection, outcomes)
  {
    var ids: seq<string> := [];
    var rest := selection;
    while rest != {}
      invariant rest <= selection
      invariant forall i :: 0 <= i < |ids| ==> ids[i] in selection
      invariant forall id :: id in selection ==> id in rest || id in ids
      decreases |rest|
    {
      var id :| id in rest;
      ids := ids + [id];
      rest := rest - {id};
    }
    allOk := AwaitAll(ids, outcomes);
  }

  /** The outcome of the second half of a bulk handler. */
  datatype BulkEnd = BulkEnd(state: ViewState, invalidated: bool, refetched: bool, alerted: bool)

  /** After the `await`: on success the inbox is invalidated and refetched
      and the selection emptied; on any failure an alert is shown and the
      selection is kept as it is; `bulkLoading` is cleared either way. */
  function SettleBulk(s: ViewState, allOk: bool): (e: BulkEnd)
    ensures !e.state.bulkLoading
    ensures e.state.filter == s.filter && e.state.cursor == s.cursor
    ensures allOk ==> e.state.selection == {} && e.invalidated && e.refetched && !e.alerted
    ensures !allOk ==> e.state.selection == s.selection && !e.invalidated && !e.refetched && e.alerted
  {
    if allOk then BulkEnd(s.(selection := {}, bulkLoading := false), true, true, false)
    else BulkEnd(s.(bulkLoading := false), false, false, true)
  }

  /** A whole bulk handler run without interleaved user input. */
  datatype BulkResult = BulkResult(
    state: ViewState,
    requests: set<Api.Request>,
    invalidated: bool,
    refetched: bool,
    alerted: bool)

  /** `handleBulkAcknowledge` / `handleBulkDelete` with each call's outcome
      given per identifier. All or nothing: only when every call succeeded
      is the inbox invalidated and the selection cleared. */
  function Bulk(s: ViewState, op: BulkOp, confirmed: bool, outcomes: map<string, bool>): (r: BulkResult)
    requires s.selection <= outcomes.Keys
    ensures !BulkProceeds(s, op, confirmed) ==> r == BulkResult(s, {}, false, false, false)
    ensures BulkProceeds(s, op, confirmed) ==>
      && r.requests == OpRequests(op, s.selection)
      && (forall id :: id in s.selection <==> OpRequest(op, id) in r.requests)
      && !r.state.bulkLoading
      && r.state.filter == s.filter && r.state.cursor == s.cursor
    ensures BulkProceeds(s, op, confirmed) && AllSucceeded(s.selection, outcomes) ==>
      r.state.selection == {} && r.invalidated && r.refetched && !r.alerted
    ensures BulkProceeds(s, op, confirmed) && !AllSucceeded(s.selection, outcomes) ==>
      r.state.selection == s.selection && !r.invalidated && !r.refetched && r.alerted
  {
    match BeginBulk(s, op, confirmed)
    case NotStarted => BulkResult(s, {}, false, false, false)
    case Started(mid, requests) =>
      var e := SettleBulk(mid, AllSucceeded(s.selection, outcomes));
      BulkResult(e.state, requests, e.invalidated, e.refetched, e.alerted)
  }

  /** One failing call keeps every identifier selected, including those whose
      call succeeded on the server. */
  lemma PartialFailureKeepsSucceeded(s: ViewState, op: BulkOp, outcomes: map<string, bool>, ok: string, bad: string)
    requires s.selection <= outcomes.Keys
    requires ok in s.selection && outcomes[ok]
    requires bad in s.selection && !outcomes[bad]
    ensures ok in Bulk(s, op, true, outcomes).state.selection
    ensures !Bulk(s, op, true, outcomes).invalidated
  {
  }

  /** The filter change keeps the selection, so a bulk action right after it
      still targets the events selected under the old filter. */
  lemma SelectionOutlivesFilterChange(s: ViewState, choice: FilterChoice, op: BulkOp, outcomes: map<string, bool>)
    requires !s.bulkLoading && s.selection != {} && s.selection <= outcomes.Keys
    ensures forall id :: id in s.selection <==>
      OpRequest(op, id) in Bulk(ChangeFilter(s, choice), op, true, outcomes).requests
  {
  }

  /** A successful bulk action clears the selection as it stands when the
      calls settle, so a box checked while they were in flight is lost. */
  lemma SelectionMadeDuringBulkIsDropped(s: ViewState, op: BulkOp, eventId: string)
    requires BeginBulk(s, op, true).Started?
    ensures eventId !in SettleBulk(Toggle(BeginBulk(s, op, true).state, eventId, true), true).state.selection
  {
  }

  // ---------------------------------------------------------------------------
  // The list as a state machine

  datatype Input =
    | Toggled(eventId: string, checked: bool)
    | SelectedAll(checked: bool)
    | ClearedSelection
    | NextClicked
    | PreviousClicked
    | FilterChosen(choice: FilterChoice)
    | SingleActionDone
    | BulkRun(op: BulkOp, confirmed: bool, outcomes: map<string, bool>)

  /** The state after one handler, given the page currently shown. */
  function Step(s: ViewState, data: Option<InboxResponse>, input: Input): ViewState
    requires input.BulkRun? ==> s.selection <= input.outcomes.Keys
  {
    match input
    case Toggled(id, checked) => Toggle(s, id, checked)
    case SelectedAll(checked) => SelectAll(s, data, checked)
    case ClearedSelection => ClearSelection(s)
    case NextClicked => NextPage(s, data)
    case PreviousClicked => PreviousPage(s)
    case FilterChosen(choice) => ChangeFilter(s, choice)
    case SingleActionDone => SingleActionSucceeded(s).state
    case BulkRun(op, confirmed, outcomes) => Bulk(s, op, confirmed, outcomes).state
  }

  /** What holds between handlers, once any bulk action has settled: the
      cursor is not the empty string, and no bulk action is running. */
  predicate Reachable(s: ViewState) {
    s.cursor != Some("") && !s.bulkLoading
  }

  /** Every handler keeps the list in a reachable state. */
  lemma StepKeepsReachable(s: ViewState, data: Option<InboxResponse>, input: Input)
    requires input.BulkRun? ==> s.selection <= input.outcomes.Keys
    requires Reachable(s)
    ensures Reachable(Step(s, data, input))
  {
  }

  /** Whenever the cursor is not the empty string (no handler sets it to
      one, with or without a bulk action in flight), the "Previous" button
      is enabled exactly when the inbox request carries a cursor, so the
      button and the page the server is asked for agree. */
  lemma PreviousMatchesRequest(s: ViewState, limit: int)
    requires s.cursor != Some("")
    ensures HasPreviousPage(s) <==> Api.Lookup(KeyRequest(Key(s, limit)).params, "cursor").Some?
  {
  }
}

=== FILE: event_types.dfy ===
/** The records the inbox service returns: an event's status, one inbox item,
    and one page of the inbox. */
module EventTypes {
  import opened Wrappers

  datatype EventStatus = Pending | Delivered | Acknowledged | Failed

  /** The wire spelling of a status, as sent in the `status` query parameter. */
  function StatusName(s: EventStatus): (name: string)
    ensures name != ""
    ensures ParseStatus(name) == Some(s)
  {
    match s
    case Pending => "pending"
    case Delivered => "delivered"
    case Acknowledged => "acknowledged"
    case Failed => "failed"
  }

  function ParseStatus(name: string): Option<EventStatus> {
    if name == "pending" then Some(Pending)
    else if name == "delivered" then Some(Delivered)
    else if name == "acknowledged" then Some(Acknowledged)
    else if name == "failed" then Some(Failed)
    else None
  }

  /** The JSON payload of an event (numbers kept as integers). */
  datatype JsonValue =
    | JsonNull
    | JsonBool(b: bool)
    | JsonNumber(n: int)
    | JsonString(str: string)
    | JsonArray(items: seq<JsonValue>)
    | JsonObject(fields: map<string, JsonValue>)

  datatype EventInboxItem = EventInboxItem(
    eventId: string,
    eventType: string,
    source: string,
    payload: map<string, JsonValue>,
    ingestedAt: string,
    status: EventStatus)

  /** One page of the inbox; `nextCursor` is None when the server sent null. */
  datatype InboxResponse = InboxResponse(
    events: seq<EventInboxItem>,
    nextCursor: Option<string>,
    totalCount: int)


  /** No two events of the page share an identifier. */
  predicate DistinctIds(events: seq<EventInboxItem>) {
    forall i, j :: 0 <= i < j < |events| ==> events[i].eventId != events[j].eventId
  }

  /** The set of identifiers on a page (what `new Set(events.map(e => e.event_id))` holds). */
  function IdSet(events: seq<EventInboxItem>): (ids: set<string>)
    ensures forall i :: 0 <= i < |events| ==> events[i].eventId in ids
    ensures forall id :: id in ids ==> exists i :: 0 <= i < |events| && events[i].eventId == id
  {
    set e | e in events :: e.eventId
  }

  /** The set of a page's identifiers has one member per event exactly when
      the identifiers are pairwise distinct. */
  lemma {:induction false} IdSetSize(events: seq<EventInboxItem>)
    ensures |IdSet(events)| <= |events|
    ensures |IdSet(events)| == |events| <==> DistinctIds(events)
  {
    if events != [] {
      var rest := events[1..];
      IdSetSize(rest);
      IdSetCons(events);
      DistinctCons(events);
    }
  }

  lemma IdSetCons(events: seq<EventInboxItem>)
    requires events != []
    ensures IdSet(events) == {events[0].eventId} + IdSet(events[1..])
  {
    var rest := events[1..];
    forall id | id in IdSet(events) ensures id in {events[0].eventId} + IdSet(rest) {
      var i :| 0 <= i < |events| && events[i].eventId == id;
      if i > 0 { assert rest[i - 1] == events[i]; }
    }
  }

  lemma DistinctCons(events: seq<EventInboxItem>)
    requires events != []
    ensures DistinctIds(events) <==> events[0].eventId !in IdSet(events[1..]) && DistinctIds(events[1..])
  {
    var rest := events[1..];
    if DistinctIds(events) {
      forall i, j | 0 <= i < j < |rest|
        ensures rest[i].eventId != rest[j].eventId
      {
        assert rest[i] == events[i + 1] && rest[j] == events[j + 1];
      }
    }
    if events[0].eventId !in IdSet(rest) && DistinctIds(rest) {
      forall i, j | 0 <= i < j < |events|
        ensures events[i].eventId != events[j].eventId
      {
        assert events[j] == rest[j - 1];
        if i > 0 { assert events[i] == rest[i - 1]; }
      }
    }
  }
}

=== FILE: js_text.dfy ===
/** The fragments of JavaScript string behaviour the dashboard relies on:
    truthiness of optional strings and the `||` fallback, `String.prototype.trim`,
    and the decimal rendering of a non-negative integer (`${n}`) together with
    its inverse for strings made only of digits. */
module JsText {
  import opened Wrappers

  /** A string-or-absent value is truthy in JavaScript exactly when it is
      present and non-empty. */
  predicate Truthy(s: Option<string>) {
    s.Some? && s.value != ""
  }

  /** `s || fallback` for a value that is a string or absent. */
  function OrElse(s: Option<string>, fallback: string): (r: string)
    ensures Truthy(s) ==> r == s.value
    ensures !Truthy(s) ==> r == fallback
  {
    if Truthy(s) then s.value else fallback
  }

  predicate StartsWith(s: string, prefix: string) {
    |prefix| <= |s| && s[..|prefix|] == prefix
  }

  predicate EndsWith(s: string, suffix: string) {
    |suffix| <= |s| && s[|s| - |suffix|..] == suffix
  }

  // ---------------------------------------------------------------------------
  // String.prototype.trim

  /** WhiteSpace and LineTerminator code points of ECMAScript (ECMA-262,
      sections 12.2 and 12.3): the characters `trim` removes. */
  predicate IsWhitespace(c: char) {
    || c == '\t' || c == '\n' || c == '\U{000B}' || c == '\U{000C}' || c == '\r'
    || c == ' ' || c == '\U{00A0}' || c == '\U{1680}'
    || ('\U{2000}' <= c <= '\U{200A}')
    || c == '\U{2028}' || c == '\U{2029}' || c == '\U{202F}' || c == '\U{205F}'
    || c == '\U{3000}' || c == '\U{FEFF}'
  }

  /** The first position at or after `i` that does not hold whitespace
      (or `|s|`): everything skipped was whitespace. */
  function SkipWhitespace(s: string, i: nat): (k: nat)
    requires i <= |s|
    ensures i <= k <= |s|
    ensures forall j :: i <= j < k ==> IsWhitespace(s[j])
    ensures k < |s| ==> !IsWhitespace(s[k])
    decreases |s| - i
  {
    if i < |s| && IsWhitespace(s[i]) then SkipWhitespace(s, i + 1) else i
  }

  /** The end of `s[lo..hi]` once trailing whitespace is dropped, never
      moving below `lo`: everything dropped was whitespace. */
  function SkipWhitespaceBack(s: string, lo: nat, hi: nat): (e: nat)
    requires lo <= hi <= |s|
    ensures lo <= e <= hi
    ensures forall j :: e <= j < hi ==> IsWhitespace(s[j])
    ensures e > lo ==> !IsWhitespace(s[e - 1])
    decreases hi
  {
    if hi > lo && IsWhitespace(s[hi - 1]) then SkipWhitespaceBack(s, lo, hi - 1) else hi
  }

  /** Where the result of `trim` starts inside `s`. */
  function TrimOffset(s: string): nat
    ensures TrimOffset(s) <= |s|
  {
    SkipWhitespace(s, 0)
  }

  /** `s.trim()`: the slice of `s` that starts at `TrimOffset(s)` and is
      surrounded only by whitespace, neither end of which is whitespace;
      it is empty exactly when `s` is all whitespace. */
  function Trim(s: string): (r: string)
    ensures var k := TrimOffset(s);
      && k + |r| <= |s|
      && r == s[k..k + |r|]
      && (forall i :: 0 <= i < k ==> IsWhitespace(s[i]))
      && (forall i :: k + |r| <= i < |s| ==> IsWhitespace(s[i]))
    ensures r != [] ==> !IsWhitespace(r[0]) && !IsWhitespace(r[|r| - 1])
    ensures r == [] <==> forall i :: 0 <= i < |s| ==> IsWhitespace(s[i])
  {
    var k := SkipWhitespace(s, 0);
    var e := SkipWhitespaceBack(s, k, |s|);
    if e == k then
      []
    else
      assert s[k] == s[k..e][0];
      s[k..e]
  }

  /** Trimming an already trimmed string changes nothing. */
  lemma TrimIdempotent(s: string)
    ensures Trim(Trim(s)) == Trim(s)
  {
    var r := Trim(s);
    if r != [] {
      assert SkipWhitespace(r, 0) == 0;
      assert SkipWhitespaceBack(r, 0, |r|) == |r|;
      assert r[0..|r|] == r;
    }
  }

  // ---------------------------------------------------------------------------
  // Decimal numerals

  predicate IsDigit(c: char) {
    '0' <= c <= '9'
  }

  predicate AllDigits(s: string) {
    forall i :: 0 <= i < |s| ==> IsDigit(s[i])
  }

  function DigitChar(d: nat): (c: char)
    requires d < 10
    ensures IsDigit(c) && c as int - '0' as int == d
  {
    (d + '0' as int) as char
  }

  function DigitValue(c: char): nat
    requires IsDigit(c)
  {
    c as int - '0' as int
  }

  /** The decimal numeral JavaScript prints for a non-negative integer:
      digits only, no leading zero unless the number is zero. */
  function ShowNat(n: nat): (r: string)
    ensures |r| >= 1 && AllDigits(r)
    ensures r[0] == '0' ==> n == 0
  {
    if n < 10 then [DigitChar(n)] else ShowNat(n / 10) + [DigitChar(n % 10)]
  }

  function DigitsValue(s: string): nat
    requires AllDigits(s)
  {
    if s == [] then 0 else 10 * DigitsValue(s[..|s| - 1]) + DigitValue(s[|s| - 1])
  }

  /** The value of a non-empty string of decimal digits; None for any other
      string (the cases where `parseInt` would stop early or yield NaN). */
  function ParseNat(s: string): (r: Option<nat>)
    ensures r.Some? <==> s != [] && AllDigits(s)
  {
    if s != [] && AllDigits(s) then Some(DigitsValue(s)) else None
  }

  /** Reading back a printed numeral gives the number that was printed. */
  lemma {:induction false} ParseShowNat(n: nat)
    ensures ParseNat(ShowNat(n)) == Some(n)
  {
    if n >= 10 {
      ParseShowNat(n / 10);
      var t := ShowNat(n / 10);
      var s := t + [DigitChar(n % 10)];
      assert s == ShowNat(n);
      assert AllDigits(t) && AllDigits(s);
      assert s[..|s| - 1] == t;
      assert DigitValue(s[|s| - 1]) == n % 10;
      assert DigitsValue(s) == 10 * DigitsValue(t) + n % 10;
      assert DigitsValue(t) == n / 10;
    } else {
      var s := ShowNat(n);
      assert s == [DigitChar(n)];
      assert AllDigits(s);
      assert s[..|s| - 1] == [];
      assert DigitsValue(s) == DigitValue(s[0]) == n;
    }
  }

  /** Printing is injective: different numbers never share a numeral. */
  lemma ShowNatInjective(m: nat, n: nat)
    requires ShowNat(m) == ShowNat(n)
    ensures m == n
  {
    ParseShowNat(m);
    ParseShowNat(n);
  }
}

=== FILE: wrappers.dfy ===
/** Optional values. The dashboard lacks a value in many places: an unset
    environment variable, a null cursor, an empty storage slot, a response
    without a `detail` field. */
module Wrappers {

  datatype Option<T> = None | Some(value: T) {

    /** The held value; `fallback` stands in when nothing is held. */
    function GetOr(fallback: T): T {
      if Some? then value else fallback
    }
  }
}
